=== FILE: README.md ===
# regaws credentials profiles in Dafny

This project models the core of `regaws.py`, a small tool that keeps AWS
credential profiles in an INI-like text file. The model covers:

- **The profile record.** `AWSProfile` has a name, an access key id, a
  secret access key and a session token. Its `dump` renders a profile as
  `[name]` followed by `key=value` lines. Its `copy` duplicates a profile.
- **The profile builder.** `_build_profile` folds a group of lines into one
  profile.
- **The file reader.** The line-grouping loop of `_get_profiles_from_creds`
  turns the lines of a credentials file into an insertion-ordered dictionary
  from profile name to profile.
- **The dictionary operations** of `AWSCredentials`:
  - `setdefault`, `inject_profile` and `inject_profile_from`, with both of
    its sources: the environment and the clipboard text;
  - `delete_profile`, `list` and `show`;
  - the text `save` writes.

Every operation is a pure function. An exception becomes an `Err` value of
`Results.Error`. The environment is a `map<string, string>` parameter. The
clipboard and the file contents are string parameters.

The modules follow the program's structure:

| module | file | content |
|---|---|---|
| `Results` | results.dfy | `Option`, `Result` and the error kinds |
| `Text` | text.dfy | Python's `strip` (`Trim`), `strip('[]')`, `find` (`Find`), `sep.join` (`Join`), `split` (`Split`), substring `in` (`Contains`) and `lower` (`AsciiLower`), as the module uses them |
| `Profiles` | profiles.dfy | the profile record, `dump` and `copy` |
| `Parser` | parser.dfy | `_build_profile` |
| `ProfileStore` | store.dfy | the profile dictionary: key order plus a map, with dict assignment and deletion |
| `Loader` | loader.dfy | the reading loop of `_get_profiles_from_creds` |
| `Credentials` | credentials.dfy | `setdefault`, `inject_profile`, `inject_profile_from`, `delete_profile`, `list`, `show` and the save text |
| `RoundTrip` | roundtrip.dfy | what `save` writes, loaded back |

Some Python semantics are written out explicitly:

- **Stripping.** `str.strip()` removes CPython's whitespace characters,
  given by code point. `str.strip('[]')` removes brackets. Both strip from
  both ends until neither end is removable.
- **`find`.** It returns -1 when the character is absent. `line[:-1]` then
  drops the last character, so a field line without `=` has the line less
  its last character as its key and the whole line as its value.
- **Truthiness.** `None` and `""` are both false.
- **Dict assignment.** A new key goes to the end of the order. An existing
  key keeps its place and takes the new value.
- **Reading a file in text mode.** A line ends at `\n`, `\r` or `\r\n`. The
  model cuts at every `\n` and every `\r`. A `\r\n` therefore yields one
  extra empty line, which the reader skips like any other blank line.
- **Clipboard text.** It is cut with `split('\n')` only, and its lines are
  not stripped.

Some behaviours of `regaws.py` that the model keeps as they are:

- **Unknown field keys.** A field line's key is passed to `setattr`
  whatever it is. A key other than the four fields has no effect on those
  fields, so `Parser.SetField` ignores it (see "## Left out" for the keys
  that make `setattr` raise).
- **No blank lines between saved sections.** `save` writes each `dump()`
  followed by a single newline, then one final newline.
- **Field lines without `=`.** Such a line is accepted through the `find`
  = -1 path described above.
- **Saving in place.** `save` opens the target file for writing and writes
  into it directly, with no temporary file.

There is one property of the code worth knowing:

- A store with no profiles saves as the text `"\n"`.
- Reading that file back fails, because the final flush builds a profile
  from no lines (`RoundTrip.SaveEmptyUnloadable`).
- For every non-empty store of storable profiles, saving and loading gives
  back the same keys in the same order, each profile normalised
  (`RoundTrip.SaveLoad`).

## Model

| member | source | states |
|---|---|---|
| Text.Trim | regaws.py:95-96 | Python's `strip(chars)`: the result is no longer than the input; neither of its ends is a removable character; an input already clean at both ends comes back unchanged. |
| Text.TrimKeepsMiddle | regaws.py:116 | What `strip` keeps is one contiguous middle slice of the input, and every character cut before or after it is removable. With `Trim`'s contract this characterises `strip` completely. |
| Text.TrimIdempotent | regaws.py:116 | Stripping an already stripped string changes nothing. |
| Text.Find | regaws.py:100 | `find` returns -1 exactly when the character does not occur. Otherwise it returns the index of its first occurrence. |
| Text.Split | regaws.py:135 | `split` yields at least one piece, and no piece contains a separator. |
| Text.SplitSepFree | regaws.py:135 | A text without separators splits into itself alone. |
| Text.SplitAtSep | regaws.py:135 | Splitting distributes over a separator: the pieces of `a + sep + b` are the pieces of `a` followed by the pieces of `b`. |
| Text.SplitJoin | regaws.py:52 | Splitting undoes a join on a separator, provided no joined piece contains a separator. |
| Text.ContainsSpliced | regaws.py:133 | Python's substring test finds a string spliced anywhere into a text. |
| Text.JoinContains | regaws.py:190 | A joined text contains each of the strings joined. |
| Text.AsciiLower | regaws.py:172 | Lower-casing keeps the length, maps each ASCII capital to its small letter and leaves every other character unchanged. |
| Profiles.NewProfile | regaws.py:37-40 | A fresh profile has the given name and no truthy credential. |
| Profiles.NewProfileRendersHeader | regaws.py:37-52 | A fresh profile with a non-empty name is already in normal form, and `dump` renders it as its `[name]` header alone. |
| Profiles.DumpLines | regaws.py:42-51 | `dump` writes no line at all exactly when the name and all three credentials are falsy. A non-empty name comes first as `[name]`. |
| Profiles.Dump | regaws.py:42-52 | Cut at each `\n`, the rendering of a profile without line breaks is exactly the lines `dump` collects. There is no trailing newline. A profile with nothing to write renders as one empty line. |
| Profiles.Copy | regaws.py:54-60 | A copy agrees with the original in all four fields. |
| Profiles.NormalizeDumpsAlike | regaws.py:42-52 | A falsy field is omitted from the rendering, so a profile and its normal form dump identically. Normalising twice is normalising once. |
| Profiles.DumpLinesRead | regaws.py:42-52 | For a profile whose name and values hold no line break, the rendering cut at `\n` alone or at every line break is exactly dump's line list: `[name]` when the name is non-empty (no header otherwise), then one `key=value` line per truthy field, in declaration order. There is no trailing newline. A profile with nothing to render gives one empty line. |
| Profiles.DumpMentionsField | regaws_test.py:12-21 | The rendering contains the field name of every credential field that has a truthy value. |
| Parser.IsHeader | regaws.py:95 | A header starts with `[` and ends with `]`, so it is at least two characters long and has no whitespace at either end. |
| Parser.HeaderName | regaws.py:96 | The name taken from a header has no bracket at either end and is shorter than the header by at least its two brackets. |
| Parser.SplitField | regaws.py:100-101 | A field line with `=` is cut at its first `=` and both sides are stripped. Without `=`, the key is the line less its last character and the value is the whole line, both stripped. |
| Parser.SetField | regaws.py:105 | `setattr` with one of the four field names replaces exactly that field. Any other key leaves the profile unchanged. |
| Parser.BuildFrom | regaws.py:94-106 | Once a header has been seen, no later line can make the build fail. With no lines left, the result is the profile under construction, or the unbound-profile error when there is none. |
| Parser.BuildProfile | regaws.py:93-106 | The build succeeds exactly when the first line is a header. An empty group fails with the unbound-profile error. A leading field line fails with the field-outside-profile error, naming its key. |
| Parser.HeaderRestarts | regaws.py:95-98 | A header discards whatever profile was under construction. |
| Parser.LastHeaderWins | regaws.py:94-98 | In a group with several headers, the profile of the last header is the result. |
| Parser.SplitFieldFirstEquals | regaws.py:100-101 | For a key without `=`, `key=value` reads back as the stripped key and the stripped value, even when the value contains `=`. |
| Parser.BracketedName | regaws.py:95-96 | `[name]` is a header. Its bracket-stripped name is `name` whenever `name` is non-empty and has no bracket at either end. |
| Parser.FieldLineRead | regaws.py:100-105 | Reading one field line that `dump` wrote sets exactly that field to the value written. A falsy field writes no line and changes nothing. |
| Parser.DumpParsesBack | regaws.py:93-106 | Building a profile from the lines `dump` writes gives back the profile, normalised, for any storable profile. |
| ProfileStore.Put | regaws.py:121 | `profiles[k] = v` keeps the dictionary well formed and maps `k` to `v`. Every other key keeps its presence and value. An existing key keeps its place; a new key is appended. |
| ProfileStore.Remove | regaws.py:184 | `del profiles[k]` keeps the dictionary well formed and removes `k`. Every other key keeps its presence and value. Reinserting `k` at its old index gives back the old order. An absent key leaves the dictionary as it is. |
| ProfileStore.RemoveUndoesPut | regaws.py:184 | Deleting a freshly assigned key restores the dictionary exactly, order included. |
| ProfileStore.PutOverwrites | regaws.py:121 | A second assignment to a key replaces the first. |
| ProfileStore.PutAll | regaws.py:121 | A run of `profiles[p.name] = p` assignments keeps the dictionary well formed. It also keeps every profile filed under its own name. |
| ProfileStore.PutAllOrder | regaws.py:121 | After such a run, the keys are the old keys followed by each new name once, in order of first appearance. |
| ProfileStore.PutAllLastWins | regaws.py:121 | After such a run, each name holds the last profile assigned under it. A name never assigned keeps its old value. |
| ProfileStore.PutAllFresh | regaws.py:121 | Assigning profiles with distinct new names appends the names in order and files each profile under its name. |
| Loader.Scan | regaws.py:113-129 | A successful read from any point of the loop gives a well-formed dictionary with at least one entry. Keys read earlier keep their order, and every profile stays filed under its own name. |
| Loader.Load | regaws.py:108-129 | A successfully read file is a well-formed, non-empty dictionary with each profile filed under its own name. |
| Loader.LoadText | regaws.py:113-116 | A file's text is cut at every line break. A successful read is a well-formed, non-empty dictionary with each profile filed under its own name. |
| Loader.UniversalNewlines | regaws.py:113-116 | A text-mode read ends a line at `\r\n` and at a lone `\r` just as at `\n`, so replacing one by another does not change what a file reads as. |
| Loader.BlankLineIgnored | regaws.py:116-117 | Inserting a whitespace-only line anywhere does not change what a file reads as. |
| Loader.LinesAreStripped | regaws.py:116 | Whitespace around any line makes no difference to what a file reads as. |
| Loader.StrayGroupFails | regaws.py:124-127 | A group opened by a field line fails at its flush, whatever follows it. |
| Loader.FieldBeforeHeaderFails | regaws.py:102-104 | A field line before the first header makes the whole read fail, naming that line's key. |
| Loader.BlankFileFails | regaws.py:126-128 | A file with no non-blank line fails with the unbound-profile error. |
| Loader.ScanSections | regaws.py:118-123 | With a section's group open, each following section flushes the open group and opens its own, in file order. |
| Loader.LoadSections | regaws.py:118-128 | A file made of sections reads as the dictionary produced by assigning each section's profile under its name, in file order. |
| Loader.SectionName | regaws.py:95-98 | A section's profile is named by its header, unless a `profile_name=` line renames it. |
| Loader.LoadedOrderAndValues | regaws.py:118-128 | For a file of sections that do not rename their profiles, the keys are the distinct header names in first-appearance order. A repeated name holds the profile of its last section. |
| Credentials.SetDefault | regaws.py:155-161 | `setdefault(name)` fails with not-found exactly when `name` is absent. Otherwise `default` holds a profile named `default` with exactly the credentials of `name`. Every other entry, `name` included, is unchanged. `default` keeps its place or is appended. |
| Credentials.SetDefaultIdempotent | regaws.py:155-161 | Making the same profile the default twice is the same as doing it once. |
| Credentials.SetDefaultOfDefault | regaws.py:155-159 | `setdefault('default')` leaves a store unchanged when every profile carries its key as its name. |
| Credentials.Inject | regaws.py:163-169 | Strict injection of a present name fails with already-exists, and only that fails. Otherwise the name maps to the profile, and with `setdefault` `default` carries its credentials. All other keys are unchanged. The new order is the old one, then the profile's name if it was absent, then, with `setdefault`, `default` if it was still absent. |
| Credentials.InjectThenDelete | regaws.py:163-169 | Injecting under a new name and deleting that name gives back the store exactly. |
| Credentials.InjectThenShow | regaws.py:163-169 | After an injection, `show` of the injected name is the profile's own rendering. |
| Credentials.Getenv | regaws.py:141-143 | `os.environ.get` gives a variable's value when it is set and `None` when it is not. |
| Credentials.ProfileFromEnv | regaws.py:139-153 | Reading from the environment succeeds exactly when the access key id and the secret are both set and non-empty. The result is named `env_profile` and carries the variables' values. Its session token is present exactly when its variable is set. |
| Credentials.ProfileFromClipboard | regaws.py:131-137 | Clipboard text without `aws_access_key_id` is refused. Otherwise the build succeeds exactly when the first raw line is a header; if not, it fails naming that line's key. |
| Credentials.ClipboardReadsDump | regaws.py:131-137 | A profile's rendering pasted from the clipboard reads back as the profile, normalised, whenever the profile has an access key id. |
| Credentials.ReadSource | regaws.py:172-175 | `cb` and `clipboard` read the clipboard, `env` and `environment` read the environment, and any other source name fails. |
| Credentials.SourceCaseBlind | regaws.py:172-175 | Source names that agree in lower case read the same profile. |
| Credentials.InjectFrom | regaws.py:171-180 | An unknown source or a failed read is reported and nothing is injected. Otherwise the result is exactly that of `inject_profile` with the profile read: the strict check, the filed profile, `default`, the unchanged other keys and the key order. |
| Credentials.EnvInjectExample | tests/raws_test.py:41-47 | With all three variables set, injecting from `env` files `env_profile` with the secret given. |
| Credentials.Delete | regaws.py:182-186 | `delete_profile(name)` fails with not-found exactly when `name` is absent. Otherwise exactly that key goes, the store shrinks by one, and every other entry is unchanged. The remaining keys keep their order: putting `name` back at its old index gives the old order. |
| Credentials.DeleteOnly | tests/raws_test.py:50-53 | Deleting the only profile leaves an empty store. |
| Credentials.List | regaws.py:188-190 | The listing starts with `- `. |
| Credentials.ListLines | regaws.py:188-190 | When no key contains a `\n`, the listing cut at each `\n` is one `- key` line per key in store order. An empty store lists as a lone `- `. |
| Credentials.ListMentions | tests/raws_test.py:56-58 | Every key appears in the listing. |
| Credentials.Show | regaws.py:192-197 | `show(name)` fails with not-found exactly when `name` is absent. Otherwise it is the named profile's rendering. |
| Credentials.ShowReadsBack | regaws.py:192-197 | What `show` prints builds back into the profile shown, normalised, for a storable profile. |
| Credentials.ShowMentionsKey | tests/raws_test.py:61-63 | What `show` prints contains the profile's access key id, when it has one. |
| Credentials.SavedBody | regaws.py:201-203 | When there is at least one key, the sections end with a newline; no keys write nothing. |
| Credentials.SaveText | regaws.py:199-204 | The saved text always ends with a newline. |
| Credentials.SaveMentionsHeader | tests/raws_test.py:66-71 | The saved text contains `[name]` for every non-empty key. |
| RoundTrip.SavedLines | regaws.py:199-204 | For keys whose profiles hold no line break and have non-empty names, the saved sections plus the final newline, cut at `\n` alone or at every line break as a text-mode read does, are the lines of each profile's rendering in store order, followed by exactly two empty lines. |
| RoundTrip.SaveTextLines | regaws.py:199-204 | For a well-formed store whose profiles hold no line break and have non-empty names, the file `save` writes, cut at each `\n`, is the lines of each profile's rendering in store order, then two empty lines. |
| RoundTrip.TrailingBlanks | regaws.py:116-117 | The empty lines at the end of a saved file do not change what it reads as. |
| RoundTrip.DumpIsSection | regaws.py:42-52 | The rendering of a storable profile consists of stripped lines: a header first, then non-header field lines. |
| RoundTrip.SaveLoad | regaws.py:199-204 | Saving a non-empty store of storable profiles and reading the file back gives the same keys in the same order, each holding its profile normalised. |
| RoundTrip.SaveLoadExact | regaws.py:199-204 | When the profiles are already in normal form, the save-and-read round trip is exact. |
| RoundTrip.SaveEmptyUnloadable | regaws.py:199-204 | An empty store saves as a lone newline, and reading that file back fails with the unbound-profile error. |

## Left out

- **Module-level setup of `AWS_CREDS_FILE`** (regaws.py:10-15) and the
  default arguments evaluated at import time. These are process-wide
  configuration; the file contents are a parameter instead.
- **File I/O.** Opening, reading and writing files (regaws.py:113,
  regaws.py:200-204) is left out. The model consumes and produces the text
  only. The UTF-8 decoding of bytes is not modelled, and neither is an I/O
  error.
- **The `pbpaste` subprocess** (regaws.py:132) is left out. The clipboard
  text is a parameter.
- **`backup`** (regaws.py:206-211) is left out. Its file name comes from
  the clock, and its content is the save text, which is modelled.
- **The command line** (regaws.py:218-299) and `__repr__` (regaws.py:213-215)
  are left out, because they are printing and argument glue.
- **Test-only names.** `rename`, `restore`, `__contains__`, `__len__`,
  `AWSCredentials(path)` and `build_aws_profile` are used by the tests but
  do not exist in regaws.py. Membership and size are read directly off the
  store.
- **Exception messages** are not modelled. Each exception is an error kind
  carrying the name or key it mentions.
- **Object identity.** `inject_profile` files the caller's own object,
  `copy` exists to avoid aliasing, and the dataclass equality ignores the
  two key fields. Profiles here are values, so aliasing cannot be observed
  and equality is structural.
- Parser.SetField: ignores every key other than the four fields, while
  the source passes it to `setattr` (regaws.py:105). A key naming a
  special attribute such as `__class__`, `__dict__` or `__weakref__` makes
  `setattr` raise, so the source fails to read the whole file where
  `Loader.Load` succeeds. A key naming a method, such as `dump=`, shadows
  that method on the one profile, which later calls would then trip over.
  Modelling Python's attribute rules is outside this model.
- Parser.BuildFrom: a `profile_name=` line renames the profile as in
  the source. `Loader.LoadSections` states its effect on the loaded
  dictionary in general: each built profile, renamed or not, is filed
  under its own name in file order. Only the key-order and last-wins
  summary of `Loader.LoadedOrderAndValues`, and `Loader.SectionName`,
  assume no such line.
- Credentials.List: its own contract states only the leading `- `. The
  full line structure, with `\n` as the separator, is stated by
  `Credentials.ListLines`, for keys without a `\n`.
- Credentials.SavedBody: its own contract states only the final newline.
  The sections themselves are stated by `RoundTrip.SavedLines` and
  `RoundTrip.SaveTextLines`, for profiles without line breaks and with
  non-empty names.
- Credentials.SaveText: its own contract states only the final newline.
  The full content, with `\n` as the separator, is stated by
  `RoundTrip.SaveTextLines`, and what it reads back as by
  `RoundTrip.SaveLoad`, for profiles without line breaks and with
  non-empty names.
- Loader.LoadText: its own contract states only well-formedness on
  success. The cutting into lines is stated by `Loader.UniversalNewlines`,
  and the resulting dictionary by the lemmas about `Loader.Load` and by
  `RoundTrip.SaveLoad`.
- Loader.Load: its own contract states only well-formedness. Which
  dictionary a file yields is stated by `Loader.LoadSections` and
  `Loader.LoadedOrderAndValues`, for files made of stripped sections.
  Blank and padded lines are reduced to that case by
  `Loader.BlankLineIgnored` and `Loader.LinesAreStripped`.
- RoundTrip.SaveLoad: holds only for storable profiles. These have a
  non-empty name with no bracket at either end, no line break anywhere, and
  no whitespace around a value. Other profiles do not survive a save in the
  source either, so this is a limit of the file format.
- Text.AsciiLower: lowers ASCII letters only, while `str.lower()` lowers
  all of Unicode. The source compares the result only with `cb`,
  `clipboard`, `env` and `environment`. Only two non-ASCII characters
  lower to something containing an ASCII letter:
  - the Kelvin sign lowers to `k`, which none of the four names contains;
  - the dotted capital I lowers to `i` plus a combining dot, and that dot
    is never part of a name.

  The membership test therefore comes out the same.

=== FILE: credentials.dfy ===
/** The operations `AWSCredentials` offers on its profile dictionary:
    `setdefault`, `inject_profile`, `inject_profile_from` with its two
    sources, `delete_profile`, `list`, `show` and the text `save` writes. */
module Credentials {
  import opened Results
  import opened Text
  import opened Profiles
  import opened Parser
  import opened ProfileStore

  /** The key `setdefault` writes to. */
  const DefaultName: string := "default"

  /** The name of a profile read from the environment. */
  const EnvProfileName: string := "env_profile"

  /** The environment variables a profile is read from. */
  const AccessKeyIdVar: string := "AWS_ACCESS_KEY_ID"
  const SecretAccessKeyVar: string := "AWS_SECRET_ACCESS_KEY"
  const SessionTokenVar: string := "AWS_SESSION_TOKEN"

  /** `setdefault(name)`: a copy of profile `name`, renamed `default`, is
      filed under `default`; every other entry stays as it was. */
  function SetDefault(s: Store, name: string): (r: Result<Store>)
    requires Valid(s)
    ensures r.Ok? <==> name in s.profiles
    ensures r.Err? ==> r.error == ProfileNotFound(name)
    ensures r.Ok? ==> Valid(r.value)
    ensures r.Ok? ==>
      && DefaultName in r.value.profiles
      && r.value.profiles[DefaultName].name == DefaultName
      && SameCredentials(r.value.profiles[DefaultName], s.profiles[name])
    ensures r.Ok? ==> forall k :: k != DefaultName ==>
      && (k in r.value.profiles <==> k in s.profiles)
      && (k in s.profiles ==> r.value.profiles[k] == s.profiles[k])
    ensures r.Ok? && DefaultName in s.profiles ==> r.value.order == s.order
    ensures r.Ok? && DefaultName !in s.profiles ==> r.value.order == s.order + [DefaultName]
    ensures r.Ok? && Coherent(s) ==> Coherent(r.value)
  {
    if name !in s.profiles then Err(ProfileNotFound(name))
    else Ok(Put(s, DefaultName, Copy(s.profiles[name]).(name := DefaultName)))
  }

  /** Making the same profile the default twice is making it the default once. */
  lemma SetDefaultIdempotent(s: Store, name: string)
    requires Valid(s)
    requires name in s.profiles
    ensures SetDefault(SetDefault(s, name).value, name) == SetDefault(s, name)
  {
    var d := Copy(s.profiles[name]).(name := DefaultName);
    var t := SetDefault(s, name).value;
    if name == DefaultName {
      assert Copy(t.profiles[name]).(name := DefaultName) == d;
      assert t.profiles[DefaultName := d] == t.profiles;
    } else {
      assert t.profiles[name] == s.profiles[name];
      PutOverwrites(s, DefaultName, d, d);
    }
  }

  /** In a store where every profile carries its key as its name, making
      `default` the default changes nothing. */
  lemma SetDefaultOfDefault(s: Store)
    requires Valid(s) && Coherent(s)
    requires DefaultName in s.profiles
    ensures SetDefault(s, DefaultName) == Ok(s)
  {
    var p := s.profiles[DefaultName];
    assert Copy(p).(name := DefaultName) == p;
    assert s.profiles[DefaultName := p] == s.profiles;
  }

  /** `inject_profile(p, setdefault, strict)`: in strict mode a name already
      present is refused and the store is left alone; otherwise `p` is filed
      under its name and, when asked, also copied to `default`. */
  function Inject(s: Store, p: Profile, setdefault: bool, strict: bool): (r: Result<Store>)
    requires Valid(s)
    ensures r.Err? <==> strict && p.name in s.profiles
    ensures r.Err? ==> r.error == ProfileExists(p.name)
    ensures r.Ok? ==> Valid(r.value)
    ensures r.Ok? ==> p.name in r.value.profiles && r.value.profiles[p.name] == p
    ensures r.Ok? && setdefault ==>
      && DefaultName in r.value.profiles
      && r.value.profiles[DefaultName].name == DefaultName
      && SameCredentials(r.value.profiles[DefaultName], p)
    ensures r.Ok? ==> forall k :: k != p.name && (setdefault ==> k != DefaultName) ==>
      && (k in r.value.profiles <==> k in s.profiles)
      && (k in s.profiles ==> r.value.profiles[k] == s.profiles[k])
    ensures r.Ok? && !setdefault ==> r.value.order == Appended(s.order, p.name)
    ensures r.Ok? && setdefault ==> r.value.order == Appended(Appended(s.order, p.name), DefaultName)
    ensures r.Ok? && Coherent(s) ==> Coherent(r.value)
  {
    if strict && p.name in s.profiles then Err(ProfileExists(p.name))
    else
      var t := Put(s, p.name, p);
      if setdefault then SetDefault(t, p.name) else Ok(t)
  }

  /** Injecting a profile under a new name and deleting it again gives back
      the store exactly, key order included. */
  lemma InjectThenDelete(s: Store, p: Profile, strict: bool)
    requires Valid(s)
    requires p.name !in s.profiles
    ensures Inject(s, p, false, strict).Ok?
    ensures Delete(Inject(s, p, false, strict).value, p.name) == Ok(s)
  {
    RemoveUndoesPut(s, p.name, p);
  }

  /** After an injection, showing the injected name gives the profile's
      own rendering. */
  lemma InjectThenShow(s: Store, p: Profile, setdefault: bool, strict: bool)
    requires Valid(s)
    requires !(strict && p.name in s.profiles)
    ensures Show(Inject(s, p, setdefault, strict).value, p.name) == Ok(Dump(p))
  {
  }

  /** `os.environ.get(key)`. */
  function Getenv(env: map<string, string>, key: string): (r: Option<string>)
    ensures r.Some? <==> key in env
    ensures r.Some? ==> r.value == env[key]
  {
    if key in env then Some(env[key]) else None
  }

  /** `_get_profile_from_env`: a profile named `env_profile` from the three
      variables; the access key id and the secret must both be set and
      non-empty, the session token may be missing. */
  function ProfileFromEnv(env: map<string, string>): (r: Result<Profile>)
    ensures r.Ok? <==>
      && AccessKeyIdVar in env && env[AccessKeyIdVar] != ""
      && SecretAccessKeyVar in env && env[SecretAccessKeyVar] != ""
    ensures r.Err? ==> r.error == MissingEnvCredentials
    ensures r.Ok? ==>
      && r.value.name == EnvProfileName
      && r.value.accessKeyId == Some(env[AccessKeyIdVar])
      && r.value.secretAccessKey == Some(env[SecretAccessKeyVar])
      && (r.value.sessionToken.Some? <==> SessionTokenVar in env)
      && (SessionTokenVar in env ==> r.value.sessionToken.value == env[SessionTokenVar])
  {
    var keyId := Getenv(env, AccessKeyIdVar);
    var secret := Getenv(env, SecretAccessKeyVar);
    if !Truthy(keyId) || !Truthy(secret) then Err(MissingEnvCredentials)
    else Ok(Profile(EnvProfileName, keyId, secret, Getenv(env, SessionTokenVar)))
  }

  /** `_get_profile_from_clipboard` given the clipboard text: the text must
      mention `aws_access_key_id` somewhere; its lines, cut at `\n` only and
      not stripped, are then built into a profile, so the first line must
      itself be a `[name]` header. */
  function ProfileFromClipboard(text: string): (r: Result<Profile>)
    ensures !Contains(text, AccessKeyIdKey) ==> r == Err(ClipboardMissingKey)
    ensures r.Ok? <==> Contains(text, AccessKeyIdKey) && IsHeader(Split(text, IsNewline)[0])
    ensures r.Err? && Contains(text, AccessKeyIdKey) ==>
      r.error == FieldOutsideProfile(SplitField(Split(text, IsNewline)[0]).0)
  {
    if !Contains(text, AccessKeyIdKey) then Err(ClipboardMissingKey)
    else BuildProfile(Split(text, IsNewline))
  }

  /** The rendering of a profile with an access key id, pasted from the
      clipboard, reads back as the profile up to normalisation. */
  lemma ClipboardReadsDump(p: Profile)
    requires Storable(p)
    requires Truthy(p.accessKeyId)
    ensures ProfileFromClipboard(Dump(p)) == Ok(Normalize(p))
  {
    var hdr := "[" + p.name + "]";
    var rest := FieldLines(SecretAccessKeyKey, p.secretAccessKey)
      + FieldLines(SessionTokenKey, p.sessionToken);
    var key := AccessKeyIdKey + "=" + p.accessKeyId.value;
    assert DumpLines(p) == [hdr, key] + rest;
    JoinContains("\n", DumpLines(p), 1);
    ContainsSpliced([], AccessKeyIdKey, "=" + p.accessKeyId.value);
    assert [] + AccessKeyIdKey + ("=" + p.accessKeyId.value) == key;
    assert Contains(Dump(p), AccessKeyIdKey) by {
      ContainsInside(Dump(p), key, AccessKeyIdKey);
    }
    DumpLinesRead(p, IsNewline);
    DumpParsesBack(p);
  }

  /** The source names `inject_profile_from` accepts, compared in lower case. */
  predicate IsClipboardSource(source: string) {
    AsciiLower(source) in {"cb", "clipboard"}
  }

  predicate IsEnvSource(source: string) {
    AsciiLower(source) in {"env", "environment"}
  }

  /** The profile `inject_profile_from` reads, with the clipboard text and
      the environment given; any other source name leaves the profile
      unbound. */
  function ReadSource(source: string, env: map<string, string>, clipboard: string): (r: Result<Profile>)
    ensures !IsClipboardSource(source) && !IsEnvSource(source) ==> r == Err(UnknownSource(source))
    ensures IsClipboardSource(source) ==> r == ProfileFromClipboard(clipboard)
    ensures !IsClipboardSource(source) && IsEnvSource(source) ==> r == ProfileFromEnv(env)
  {
    if IsClipboardSource(source) then ProfileFromClipboard(clipboard)
    else if IsEnvSource(source) then ProfileFromEnv(env)
    else Err(UnknownSource(source))
  }

  /** `inject_profile_from(source, setdefault, strict)`: the profile read
      from the source is injected as `inject_profile` would; a failed read
      leaves the store alone and reports why. */
  function InjectFrom(s: Store, source: string, env: map<string, string>, clipboard: string,
                      setdefault: bool, strict: bool): (r: Result<Store>)
    requires Valid(s)
    ensures !IsClipboardSource(source) && !IsEnvSource(source) ==> r == Err(UnknownSource(source))
    ensures ReadSource(source, env, clipboard).Err? ==> r == Err(ReadSource(source, env, clipboard).error)
    ensures ReadSource(source, env, clipboard).Ok? ==>
      var p := ReadSource(source, env, clipboard).value;
      && (r.Err? <==> strict && p.name in s.profiles)
      && (r.Ok? ==> Valid(r.value) && p.name in r.value.profiles && r.value.profiles[p.name] == p)
      && (r.Ok? && setdefault ==>
            DefaultName in r.value.profiles && SameCredentials(r.value.profiles[DefaultName], p))
      && (r.Ok? ==> s.order <= r.value.order)
      && (r.Ok? ==> forall k :: k != p.name && (setdefault ==> k != DefaultName) ==>
            && (k in r.value.profiles <==> k in s.profiles)
            && (k in s.profiles ==> r.value.profiles[k] == s.profiles[k]))
    ensures ReadSource(source, env, clipboard).Ok? ==>
      r == Inject(s, ReadSource(source, env, clipboard).value, setdefault, strict)
  {
    var p :- ReadSource(source, env, clipboard);
    var r := Inject(s, p, setdefault, strict);
    assert r.Ok? ==> s.order <= r.value.order;
    r
  }

  /** Source names are matched without regard to letter case. */
  lemma SourceCaseBlind(a: string, b: string, env: map<string, string>, clipboard: string)
    requires AsciiLower(a) == AsciiLower(b)
    requires IsClipboardSource(a) || IsEnvSource(a)
    ensures ReadSource(a, env, clipboard) == ReadSource(b, env, clipboard)
  {
  }

  /** The environment example of the test suite: with all three variables
      set, injecting from `env` files `env_profile` with the secret given. */
  lemma EnvInjectExample(s: Store)
    requires Valid(s)
    ensures var env := map[AccessKeyIdVar := "DEADBEEF", SecretAccessKeyVar := "VERYSECRET",
                           SessionTokenVar := "SPOKENTOKEN"];
      var r := InjectFrom(s, "env", env, "", false, false);
      && r.Ok?
      && EnvProfileName in r.value.profiles
      && r.value.profiles[EnvProfileName].secretAccessKey == Some("VERYSECRET")
  {
    var lowered := AsciiLower("env");
    assert lowered == "env" by {
      assert |lowered| == 3;
      assert lowered[0] == 'e' && lowered[1] == 'n' && lowered[2] == 'v';
    }
    assert !Contains("", AccessKeyIdKey);
  }

  /** `delete_profile(name)`: the entry goes, every other entry and the
      order of the remaining keys stay. */
  function Delete(s: Store, name: string): (r: Result<Store>)
    requires Valid(s)
    ensures r.Ok? <==> name in s.profiles
    ensures r.Err? ==> r.error == ProfileNotFound(name)
    ensures r.Ok? ==> Valid(r.value) && name !in r.value.profiles
    ensures r.Ok? ==> |r.value.order| == |s.order| - 1
    ensures r.Ok? ==> var i := IndexOf(s.order, name);
      i <= |r.value.order| && s.order == r.value.order[..i] + [name] + r.value.order[i..]
    ensures r.Ok? ==> forall k :: k != name ==>
      && (k in r.value.profiles <==> k in s.profiles)
      && (k in s.profiles ==> r.value.profiles[k] == s.profiles[k])
    ensures r.Ok? && Coherent(s) ==> Coherent(r.value)
  {
    if name !in s.profiles then Err(ProfileNotFound(name))
    else Ok(Remove(s, name))
  }

  /** Deleting the only profile leaves the store empty, as the test suite
      expects of its one-profile sample. */
  lemma DeleteOnly(s: Store, name: string)
    requires Valid(s)
    requires s.order == [name]
    ensures Delete(s, name) == Ok(Empty)
  {
    var r := Delete(s, name).value;
    assert name in s.order;
    assert |r.order| == 0;
    assert r.profiles == map[];
  }

  /** `list()`: every key in order, each after `- `, one per line. */
  function List(s: Store): (r: string)
    ensures StartsWith(r, "- ")
  {
    "- " + Join("\n- ", s.order)
  }

  /** The bullet lines `list()` prints, one per key. */
  function Bullets(ks: seq<string>): (r: seq<string>)
    ensures |r| == |ks|
    ensures forall i :: 0 <= i < |ks| ==> r[i] == "- " + ks[i]
  {
    if ks == [] then [] else ["- " + ks[0]] + Bullets(ks[1..])
  }

  lemma {:induction false} JoinBullets(ks: seq<string>)
    requires ks != []
    ensures "- " + Join("\n- ", ks) == Join("\n", Bullets(ks))
    decreases |ks|
  {
    if |ks| > 1 {
      JoinBullets(ks[1..]);
      assert Bullets(ks)[1..] == Bullets(ks[1..]);
      assert "\n- " == "\n" + "- ";
    }
  }

  /** Read line by line, the listing is exactly one `- key` line per key in
      store order; an empty store lists as a lone `- `. */
  lemma ListLines(s: Store)
    requires forall i :: 0 <= i < |s.order| ==> SepFree(s.order[i], IsNewline)
    ensures Split(List(s), IsNewline) == (if s.order == [] then ["- "] else Bullets(s.order))
  {
    var ks := s.order;
    if ks == [] {
      SplitSepFree("- ", IsNewline);
    } else {
      JoinBullets(ks);
      var bs := Bullets(ks);
      forall i | 0 <= i < |bs| ensures SepFree(bs[i], IsNewline) {
        assert bs[i] == "- " + ks[i];
        assert SepFree(ks[i], IsNewline);
      }
      SplitJoin('\n', bs, IsNewline);
    }
  }

  /** Every key shows up in the listing. */
  lemma ListMentions(s: Store, i: nat)
    requires i < |s.order|
    ensures Contains(List(s), s.order[i])
  {
    JoinContains("\n- ", s.order, i);
    ContainsAfter("- ", Join("\n- ", s.order), s.order[i]);
  }

  /** `show(name)`: the rendering of the named profile. */
  function Show(s: Store, name: string): (r: Result<string>)
    ensures r.Ok? <==> name in s.profiles
    ensures r.Err? ==> r.error == ProfileNotFound(name)
    ensures r.Ok? ==> r.value == Dump(s.profiles[name])
  {
    if name !in s.profiles then Err(ProfileNotFound(name))
    else Ok(Dump(s.profiles[name]))
  }

  /** What `show` prints parses back into the profile shown, up to
      normalisation. */
  lemma ShowReadsBack(s: Store, name: string)
    requires name in s.profiles
    requires Storable(s.profiles[name])
    ensures BuildProfile(Split(Show(s, name).value, IsLineBreak)) == Ok(Normalize(s.profiles[name]))
  {
    var p := s.profiles[name];
    DumpLinesRead(p, IsLineBreak);
    DumpParsesBack(p);
  }

  /** What `show` prints mentions the access key id, when there is one. */
  lemma ShowMentionsKey(s: Store, name: string)
    requires name in s.profiles
    requires Truthy(s.profiles[name].accessKeyId)
    ensures Contains(Show(s, name).value, s.profiles[name].accessKeyId.value)
  {
    var p := s.profiles[name];
    var v := p.accessKeyId.value;
    var key := AccessKeyIdKey + "=" + v;
    var hdr := if p.name != "" then ["[" + p.name + "]"] else [];
    var rest := FieldLines(SecretAccessKeyKey, p.secretAccessKey)
      + FieldLines(SessionTokenKey, p.sessionToken);
    assert DumpLines(p) == hdr + [key] + rest;
    JoinContains("\n", DumpLines(p), |hdr|);
    ContainsSpliced(AccessKeyIdKey + "=", v, []);
    assert AccessKeyIdKey + "=" + v + [] == key;
    ContainsInside(Dump(p), key, v);
  }

  /** The sections `save` writes, each profile's rendering followed by a
      newline, in store order. */
  function SavedBody(ks: seq<string>, profiles: map<string, Profile>): (r: string)
    requires forall i :: 0 <= i < |ks| ==> ks[i] in profiles
    ensures ks != [] ==> |r| >= 1 && r[|r| - 1] == '\n'
    ensures ks == [] ==> r == ""
  {
    if ks == [] then ""
    else Dump(profiles[ks[0]]) + "\n" + SavedBody(ks[1..], profiles)
  }

  /** The file `save()` writes: every section, then one more newline. */
  function SaveText(s: Store): (r: string)
    requires Valid(s)
    ensures |r| >= 1 && r[|r| - 1] == '\n'
  {
    SavedBody(s.order, s.profiles) + "\n"
  }

  /** Every saved section begins with its `[name]` header. */
  lemma SaveMentionsHeader(s: Store, i: nat)
    requires Valid(s) && Coherent(s)
    requires i < |s.order| && s.order[i] != ""
    ensures Contains(SaveText(s), "[" + s.order[i] + "]")
  {
    BodyMentionsHeader(s.order, s.profiles, i);
    PrefixContains(SavedBody(s.order, s.profiles), "[" + s.order[i] + "]", "\n");
  }

  lemma {:induction false} BodyMentionsHeader(ks: seq<string>, profiles: map<string, Profile>, i: nat)
    requires forall j :: 0 <= j < |ks| ==> ks[j] in profiles && profiles[ks[j]].name == ks[j]
    requires i < |ks| && ks[i] != ""
    ensures Contains(SavedBody(ks, profiles), "[" + ks[i] + "]")
    decreases |ks|
  {
    var p := profiles[ks[0]];
    var d := Dump(p);
    var tail := SavedBody(ks[1..], profiles);
    assert SavedBody(ks, profiles) == d + ("\n" + tail);
    if i == 0 {
      var hdr := "[" + p.name + "]";
      assert DumpLines(p)[0] == hdr;
      JoinContains("\n", DumpLines(p), 0);
      PrefixContains(d, hdr, "\n" + tail);
    } else {
      BodyMentionsHeader(ks[1..], profiles, i - 1);
      ContainsAfter(d + "\n", tail, "[" + ks[i] + "]");
      assert d + "\n" + tail == d + ("\n" + tail);
    }
  }
}

=== FILE: loader.dfy ===
/** Reading a credentials file into the ordered profile dictionary
    (`_get_profiles_from_creds`), as a function of the file's lines. */
module Loader {
  import opened Results
  import opened Text
  import opened Profiles
  import opened Parser
  import opened ProfileStore

  /** The reading loop from the point where `group` holds the stripped lines
      collected since the last flush and `acc` the profiles read so far.
      Each non-blank line is stripped; a header flushes a non-empty group
      into the dictionary and starts a new one; at the end the last group is
      flushed unconditionally, even when it is empty. */
  function Scan(lines: seq<string>, group: seq<string>, acc: Store): (r: Result<Store>)
    requires Valid(acc)
    ensures r.Ok? ==> Valid(r.value)
    ensures r.Ok? && Coherent(acc) ==> Coherent(r.value)
    ensures r.Ok? ==> |r.value.order| >= 1
    ensures r.Ok? ==> acc.order <= r.value.order
    decreases |lines|
  {
    if lines == [] then
      var p :- BuildProfile(group);
      Ok(Put(acc, p.name, p))
    else
      var line := Strip(lines[0]);
      if |line| == 0 then Scan(lines[1..], group, acc)
      else if IsHeader(line) && |group| > 0 then
        var p :- BuildProfile(group);
        Scan(lines[1..], [line], Put(acc, p.name, p))
      else Scan(lines[1..], group + [line], acc)
  }

  /** The profiles of a file given as its lines. A successful load is a
      well-formed dictionary, never empty, with every profile filed under its
      own name. */
  function Load(lines: seq<string>): (r: Result<Store>)
    ensures r.Ok? ==> Valid(r.value) && Coherent(r.value)
    ensures r.Ok? ==> |r.value.order| >= 1
  {
    Scan(lines, [], Empty)
  }

  /** The profiles of a file given as its text: a text-mode read ends a line
      at `\n`, at `\r` and at `\r\n` (the last yields one extra empty line
      here, which the loader skips like any blank line). */
  function LoadText(text: string): (r: Result<Store>)
    ensures r.Ok? ==> Valid(r.value) && Coherent(r.value)
    ensures r.Ok? ==> |r.value.order| >= 1
  {
    Load(Split(text, IsLineBreak))
  }

  /** `\r\n` and a lone `\r` end a line just as `\n` does: the text reads
      as the same dictionary, or fails the same way. */
  lemma UniversalNewlines(a: string, b: string)
    ensures LoadText(a + "\r\n" + b) == LoadText(a + "\n" + b)
    ensures LoadText(a + "\r" + b) == LoadText(a + "\n" + b)
  {
    var la := Split(a, IsLineBreak);
    var lb := Split(b, IsLineBreak);
    SplitAtSep(a, '\n', b, IsLineBreak);
    SplitAtSep(a, '\r', b, IsLineBreak);
    assert a + "\n" + b == a + ['\n'] + b;
    assert a + "\r" + b == a + ['\r'] + b;
    SplitAtSep([], '\n', b, IsLineBreak);
    SplitAtSep(a, '\r', "\n" + b, IsLineBreak);
    assert a + "\r\n" + b == a + ['\r'] + ("\n" + b);
    assert [] + ['\n'] + b == "\n" + b;
    assert Split([], IsLineBreak) == [""];
    BlankLineIgnored(la, "", lb);
    assert la + ([""] + lb) == la + [""] + lb;
  }

  /** A line with nothing but whitespace. */
  predicate Blank(line: string) {
    Strip(line) == ""
  }

  /** Blank lines are skipped wherever they stand. */
  lemma {:induction false} ScanSkipsBlank(a: seq<string>, b: string, c: seq<string>, group: seq<string>, acc: Store)
    requires Valid(acc)
    requires Blank(b)
    ensures Scan(a + [b] + c, group, acc) == Scan(a + c, group, acc)
    decreases |a|
  {
    if a == [] {
      assert a + [b] + c == [b] + c && ([b] + c)[1..] == c && a + c == c;
    } else {
      var l := a + [b] + c;
      assert l[0] == a[0] && l[1..] == a[1..] + [b] + c;
      assert (a + c)[0] == a[0] && (a + c)[1..] == a[1..] + c;
      var line := Strip(a[0]);
      if |line| == 0 {
        ScanSkipsBlank(a[1..], b, c, group, acc);
      } else if IsHeader(line) && |group| > 0 {
        var p := BuildProfile(group);
        if p.Ok? {
          ScanSkipsBlank(a[1..], b, c, [line], Put(acc, p.value.name, p.value));
        }
      } else {
        ScanSkipsBlank(a[1..], b, c, group + [line], acc);
      }
    }
  }

  /** Inserting a blank line anywhere in a file does not change what it
      loads as. */
  lemma BlankLineIgnored(a: seq<string>, b: string, c: seq<string>)
    requires Blank(b)
    ensures Load(a + [b] + c) == Load(a + c)
  {
    ScanSkipsBlank(a, b, c, [], Empty);
  }

  /** A run of blank lines at the front is skipped. */
  lemma {:induction false} ScanSkipsBlanks(a: seq<string>, rest: seq<string>, group: seq<string>, acc: Store)
    requires Valid(acc)
    requires forall i :: 0 <= i < |a| ==> Blank(a[i])
    ensures Scan(a + rest, group, acc) == Scan(rest, group, acc)
    decreases |a|
  {
    if a != [] {
      var l := a + rest;
      assert Blank(a[0]);
      assert l[0] == a[0] && l[1..] == a[1..] + rest;
      ScanSkipsBlanks(a[1..], rest, group, acc);
    } else {
      assert a + rest == rest;
    }
  }

  /** Every line stripped of surrounding whitespace. */
  function StripAll(lines: seq<string>): (r: seq<string>)
    ensures |r| == |lines|
    ensures forall i :: 0 <= i < |lines| ==> r[i] == Strip(lines[i])
  {
    if lines == [] then [] else [Strip(lines[0])] + StripAll(lines[1..])
  }

  lemma {:induction false} ScanStripped(lines: seq<string>, group: seq<string>, acc: Store)
    requires Valid(acc)
    ensures Scan(StripAll(lines), group, acc) == Scan(lines, group, acc)
    decreases |lines|
  {
    if lines != [] {
      var s := StripAll(lines);
      assert s[1..] == StripAll(lines[1..]);
      TrimIdempotent(lines[0], IsSpace);
      var line := Strip(lines[0]);
      assert Strip(s[0]) == line;
      if |line| == 0 {
        ScanStripped(lines[1..], group, acc);
      } else if IsHeader(line) && |group| > 0 {
        var p := BuildProfile(group);
        if p.Ok? {
          ScanStripped(lines[1..], [line], Put(acc, p.value.name, p.value));
        }
      } else {
        ScanStripped(lines[1..], group + [line], acc);
      }
    }
  }

  /** Surrounding whitespace on any line makes no difference: the loader
      strips every line before looking at it. */
  lemma LinesAreStripped(lines: seq<string>)
    ensures Load(StripAll(lines)) == Load(lines)
  {
    ScanStripped(lines, [], Empty);
  }

  /** A group opened by a field line fails when it is flushed, whatever
      follows. */
  lemma {:induction false} StrayGroupFails(lines: seq<string>, group: seq<string>, acc: Store)
    requires Valid(acc)
    requires group != [] && !IsHeader(group[0])
    ensures Scan(lines, group, acc) == Err(FieldOutsideProfile(SplitField(group[0]).0))
    decreases |lines|
  {
    if lines != [] {
      var line := Strip(lines[0]);
      if |line| == 0 {
        StrayGroupFails(lines[1..], group, acc);
      } else if !IsHeader(line) {
        assert (group + [line])[0] == group[0];
        StrayGroupFails(lines[1..], group + [line], acc);
      }
    }
  }

  /** A field line before the first header makes the whole load fail,
      naming that line's key; nothing is returned. */
  lemma FieldBeforeHeaderFails(a: seq<string>, l: string, c: seq<string>)
    requires forall i :: 0 <= i < |a| ==> Blank(a[i])
    requires !Blank(l) && !IsHeader(Strip(l))
    ensures Load(a + [l] + c) == Err(FieldOutsideProfile(SplitField(Strip(l)).0))
  {
    assert a + [l] + c == a + ([l] + c);
    ScanSkipsBlanks(a, [l] + c, [], Empty);
    assert ([l] + c)[0] == l && ([l] + c)[1..] == c;
    assert [] + [Strip(l)] == [Strip(l)];
    StrayGroupFails(c, [Strip(l)], Empty);
  }

  /** A file with no non-blank line fails: the final flush builds a
      profile from no lines at all. */
  lemma BlankFileFails(lines: seq<string>)
    requires forall i :: 0 <= i < |lines| ==> Blank(lines[i])
    ensures Load(lines) == Err(EmptyProfileText)
  {
    ScanSkipsBlanks(lines, [], [], Empty);
    assert lines + [] == lines;
  }

  /** A line as the loader sees it once stripped and found non-blank. */
  predicate Stripped(line: string) {
    line != "" && Strip(line) == line
  }

  /** One section of a file: a header line followed by field lines, all
      stripped and non-blank. */
  predicate Section(g: seq<string>) {
    && |g| > 0
    && IsHeader(g[0])
    && (forall i :: 0 <= i < |g| ==> Stripped(g[i]))
    && (forall i :: 1 <= i < |g| ==> !IsHeader(g[i]))
  }

  /** The lines of several sections, one after another. */
  function Flatten(gs: seq<seq<string>>): seq<string> {
    if gs == [] then [] else gs[0] + Flatten(gs[1..])
  }

  /** The profile each section builds. */
  function SectionProfiles(gs: seq<seq<string>>): (r: seq<Profile>)
    requires forall i :: 0 <= i < |gs| ==> Section(gs[i])
    ensures |r| == |gs|
    ensures forall i :: 0 <= i < |gs| ==> BuildProfile(gs[i]) == Ok(r[i])
  {
    if gs == [] then []
    else
      assert Section(gs[0]);
      [BuildProfile(gs[0]).value] + SectionProfiles(gs[1..])
  }

  lemma HeadAndRest(g: seq<string>, rest: seq<string>)
    requires g != []
    ensures g + rest == [g[0]] + (g[1..] + rest)
  {
    assert g == [g[0]] + g[1..];
  }

  /** Field lines only extend the group being collected. */
  lemma {:induction false} ScanCollects(ls: seq<string>, rest: seq<string>, group: seq<string>, acc: Store)
    requires Valid(acc)
    requires forall i :: 0 <= i < |ls| ==> Stripped(ls[i]) && !IsHeader(ls[i])
    ensures Scan(ls + rest, group, acc) == Scan(rest, group + ls, acc)
    decreases |ls|
  {
    if ls == [] {
      assert ls + rest == rest && group + ls == group;
    } else {
      var l := ls + rest;
      assert l[0] == ls[0] && l[1..] == ls[1..] + rest;
      assert Strip(ls[0]) == ls[0];
      ScanCollects(ls[1..], rest, group + [ls[0]], acc);
      assert group + [ls[0]] + ls[1..] == group + ls;
    }
  }

  /** The field lines of a section all go into the group its header opened. */
  lemma SectionCollected(g: seq<string>, rest: seq<string>, acc: Store)
    requires Valid(acc)
    requires Section(g)
    ensures Scan(g[1..] + rest, [g[0]], acc) == Scan(rest, g, acc)
  {
    forall i | 0 <= i < |g[1..]| ensures Stripped(g[1..][i]) && !IsHeader(g[1..][i]) {
      assert g[1..][i] == g[i + 1];
    }
    ScanCollects(g[1..], rest, [g[0]], acc);
    assert [g[0]] + g[1..] == g;
  }

  /** The first section of a file opens the first group. */
  lemma SectionOpens(g: seq<string>, rest: seq<string>, acc: Store)
    requires Valid(acc)
    requires Section(g)
    ensures Scan(g + rest, [], acc) == Scan(rest, g, acc)
  {
    HeadAndRest(g, rest);
    assert Strip(g[0]) == g[0];
    assert [] + [g[0]] == [g[0]];
    assert Scan(g + rest, [], acc) == Scan(g[1..] + rest, [g[0]], acc);
    SectionCollected(g, rest, acc);
  }

  /** A later section flushes the open group and opens its own. */
  lemma SectionFlushes(g: seq<string>, rest: seq<string>, first: seq<string>, acc: Store)
    requires Valid(acc)
    requires Section(g) && Section(first)
    ensures var p := BuildProfile(first).value;
      Scan(g + rest, first, acc) == Scan(rest, g, Put(acc, p.name, p))
  {
    var p := BuildProfile(first).value;
    HeadAndRest(g, rest);
    assert Strip(g[0]) == g[0];
    assert Scan(g + rest, first, acc) == Scan(g[1..] + rest, [g[0]], Put(acc, p.name, p));
    SectionCollected(g, rest, Put(acc, p.name, p));
  }

  /** Reading sections while the group of section `first` is still open:
      every section is flushed in turn, in file order. */
  lemma {:induction false} ScanSections(gs: seq<seq<string>>, first: seq<string>, acc: Store)
    requires Valid(acc)
    requires Section(first)
    requires forall i :: 0 <= i < |gs| ==> Section(gs[i])
    ensures Scan(Flatten(gs), first, acc) == Ok(PutAll(acc, [BuildProfile(first).value] + SectionProfiles(gs)))
    decreases |gs|
  {
    var p := BuildProfile(first).value;
    var acc' := Put(acc, p.name, p);
    if gs == [] {
      assert [p] + SectionProfiles(gs) == [p];
      assert PutAll(acc, [p]) == PutAll(acc', []);
    } else {
      var g := gs[0];
      assert Section(g);
      assert Flatten(gs) == g + Flatten(gs[1..]);
      SectionFlushes(g, Flatten(gs[1..]), first, acc);
      ScanSections(gs[1..], g, acc');
      assert SectionProfiles(gs) == [BuildProfile(g).value] + SectionProfiles(gs[1..]);
      assert ([p] + SectionProfiles(gs))[1..] == SectionProfiles(gs);
    }
  }

  /** Reading sections from the start of a file, with nothing collected. */
  lemma ScanFromStart(gs: seq<seq<string>>, acc: Store)
    requires Valid(acc)
    requires |gs| >= 1
    requires forall i :: 0 <= i < |gs| ==> Section(gs[i])
    ensures Scan(Flatten(gs), [], acc) == Ok(PutAll(acc, SectionProfiles(gs)))
  {
    var g := gs[0];
    var rest := gs[1..];
    assert Section(g);
    assert Flatten(gs) == g + Flatten(rest);
    assert SectionProfiles(gs) == [BuildProfile(g).value] + SectionProfiles(rest);
    SectionOpens(g, Flatten(rest), acc);
    ScanSections(rest, g, acc);
  }

  /** A file made of sections loads as the dictionary that assigning each
      section's profile under its name, in file order, produces: each header
      starts a new profile. */
  lemma LoadSections(gs: seq<seq<string>>)
    requires |gs| >= 1
    requires forall i :: 0 <= i < |gs| ==> Section(gs[i])
    ensures Load(Flatten(gs)) == Ok(PutAll(Empty, SectionProfiles(gs)))
  {
    ScanFromStart(gs, Empty);
  }

  /** No field line of the section renames the profile. */
  predicate NoRename(g: seq<string>) {
    forall i :: 1 <= i < |g| ==> SplitField(g[i]).0 != NameKey
  }

  lemma {:induction false} FieldsKeepName(ls: seq<string>, p: Profile)
    requires forall i :: 0 <= i < |ls| ==> !IsHeader(ls[i]) && SplitField(ls[i]).0 != NameKey
    ensures BuildFrom(ls, Some(p)).Ok? && BuildFrom(ls, Some(p)).value.name == p.name
    decreases |ls|
  {
    if ls != [] {
      var (key, value) := SplitField(ls[0]);
      FieldsKeepName(ls[1..], SetField(p, key, value));
    }
  }

  /** The name a section's profile gets is the one its header announces,
      unless a `profile_name=` line renames it. */
  lemma SectionName(g: seq<string>)
    requires Section(g) && NoRename(g)
    ensures BuildProfile(g).value.name == HeaderName(g[0])
  {
    forall i | 0 <= i < |g[1..]| ensures !IsHeader(g[1..][i]) && SplitField(g[1..][i]).0 != NameKey {
      assert g[1..][i] == g[i + 1];
    }
    FieldsKeepName(g[1..], NewProfile(HeaderName(g[0])));
  }

  /** The names the section headers announce, in file order. */
  function HeaderNames(gs: seq<seq<string>>): (r: seq<string>)
    requires forall i :: 0 <= i < |gs| ==> Section(gs[i])
    ensures |r| == |gs|
    ensures forall i :: 0 <= i < |gs| ==> Section(gs[i]) && r[i] == HeaderName(gs[i][0])
  {
    if gs == [] then []
    else
      assert Section(gs[0]);
      [HeaderName(gs[0][0])] + HeaderNames(gs[1..])
  }

  /** A file of sections none of which renames its profile loads with one
      entry per distinct header name, in order of first appearance; a
      repeated header name keeps its first place and takes the profile of
      its LAST section. */
  lemma LoadedOrderAndValues(gs: seq<seq<string>>, k: string)
    requires |gs| >= 1
    requires forall i :: 0 <= i < |gs| ==> Section(gs[i]) && NoRename(gs[i])
    ensures Load(Flatten(gs)).Ok?
    ensures Load(Flatten(gs)).value.order == FirstAppearances(HeaderNames(gs), [])
    ensures k in Load(Flatten(gs)).value.profiles <==> k in HeaderNames(gs)
    ensures k in HeaderNames(gs) ==>
      && LastNamed(SectionProfiles(gs), k).Some?
      && Load(Flatten(gs)).value.profiles[k] == LastNamed(SectionProfiles(gs), k).value
  {
    LoadSections(gs);
    var ps := SectionProfiles(gs);
    assert Names(ps) == HeaderNames(gs) by {
      forall i | 0 <= i < |gs| ensures Names(ps)[i] == HeaderNames(gs)[i] {
        SectionName(gs[i]);
      }
    }
    PutAllOrder(Empty, ps);
    PutAllLastWins(Empty, ps, k);
  }
}

=== FILE: parser.dfy ===
/** Building one profile from a group of lines (`_build_profile`). */
module Parser {
  import opened Results
  import opened Text
  import opened Profiles

  /** A section header: starts with `[` and ends with `]`. Such a line has
      no whitespace at either end and is at least two characters long. */
  predicate IsHeader(line: string): (r: bool)
    ensures r ==> |line| >= 2 && Clean(line, IsSpace)
  {
    |line| > 0 && line[0] == '[' && line[|line| - 1] == ']'
  }

  /** The profile name a header line announces: every bracket stripped from
      both ends, so it is shorter than the header by at least the two
      brackets. */
  function HeaderName(line: string): (r: string)
    ensures Clean(r, IsBracket)
    ensures IsHeader(line) ==> |r| <= |line| - 2
  {
    assert IsHeader(line) ==> |StripBrackets(line)| <= |line| - 2 by {
      if IsHeader(line) {
        TrimKeepsMiddle(line, IsBracket);
        var k := LeftCut(line, IsBracket);
        var r := StripBrackets(line);
        if r != [] {
          assert r[0] == line[k];
          assert line[..k][0] == line[0];
          assert k >= 1;
          assert r[|r| - 1] == line[k + |r| - 1];
          assert line[k + |r|..][|line| - k - |r| - 1] == line[|line| - 1];
        }
      }
    }
    StripBrackets(line)
  }

  /** Python's `line[:-1]`: all but the last character. */
  function DropLast(line: string): string {
    if line == [] then [] else line[..|line| - 1]
  }

  /** The key and value of a field line: the line is cut at its first `=`
      and both sides are stripped, so the value may itself contain `=`.
      Without any `=`, Python's `find` yields -1, so the key is the line
      less its last character and the value is the whole line. */
  function SplitField(line: string): (r: (string, string))
    ensures '=' in line ==>
      exists i :: 0 <= i < |line| && line[i] == '=' && '=' !in line[..i]
        && r == (Strip(line[..i]), Strip(line[i + 1..]))
    ensures '=' !in line ==> r == (Strip(DropLast(line)), Strip(line))
  {
    var sep := Find(line, '=');
    if sep < 0 then (Strip(DropLast(line)), Strip(line))
    else (Strip(line[..sep]), Strip(line[sep + 1..]))
  }

  /** `setattr(profile, key, value)` restricted to the dataclass fields:
      `profile_name` renames, the three credential keys set their field,
      and any other key leaves the profile as it is. */
  function SetField(p: Profile, key: string, value: string): (r: Profile)
    ensures key == NameKey ==> r == p.(name := value)
    ensures key == AccessKeyIdKey ==> r == p.(accessKeyId := Some(value))
    ensures key == SecretAccessKeyKey ==> r == p.(secretAccessKey := Some(value))
    ensures key == SessionTokenKey ==> r == p.(sessionToken := Some(value))
    ensures key !in {NameKey, AccessKeyIdKey, SecretAccessKeyKey, SessionTokenKey} ==> r == p
  {
    if key == NameKey then p.(name := value)
    else if key == AccessKeyIdKey then p.(accessKeyId := Some(value))
    else if key == SecretAccessKeyKey then p.(secretAccessKey := Some(value))
    else if key == SessionTokenKey then p.(sessionToken := Some(value))
    else p
  }

  /** The loop of `_build_profile` from the point where `current` is the
      profile under construction (`None` while no header has been seen). */
  function BuildFrom(lines: seq<string>, current: Option<Profile>): (r: Result<Profile>)
    ensures current.Some? ==> r.Ok?
    ensures lines == [] ==> r == (if current.Some? then Ok(current.value) else Err(EmptyProfileText))
    decreases |lines|
  {
    if lines == [] then
      if current.Some? then Ok(current.value) else Err(EmptyProfileText)
    else
      var line := lines[0];
      if IsHeader(line) then
        BuildFrom(lines[1..], Some(NewProfile(HeaderName(line))))
      else
        var (key, value) := SplitField(line);
        if current.None? then Err(FieldOutsideProfile(key))
        else BuildFrom(lines[1..], Some(SetField(current.value, key, value)))
  }

  /** `_build_profile(lines)`: the profile the lines describe. It fails on an
      empty group and on a field line before any header; once the first line
      is a header nothing can fail. */
  function BuildProfile(lines: seq<string>): (r: Result<Profile>)
    ensures r.Ok? <==> lines != [] && IsHeader(lines[0])
    ensures lines == [] ==> r == Err(EmptyProfileText)
    ensures lines != [] && !IsHeader(lines[0]) ==>
      r == Err(FieldOutsideProfile(SplitField(lines[0]).0))
  {
    BuildFrom(lines, None)
  }

  /** A header discards whatever was built before it. */
  lemma {:induction false} HeaderRestarts(a: seq<string>, h: string, b: seq<string>, current: Profile)
    requires IsHeader(h)
    ensures BuildFrom(a + [h] + b, Some(current)) == BuildFrom([h] + b, None)
    decreases |a|
  {
    if a == [] {
      assert a + [h] + b == [h] + b;
    } else {
      var ls := a + [h] + b;
      assert ls[0] == a[0];
      assert ls[1..] == a[1..] + [h] + b;
      var line := a[0];
      if IsHeader(line) {
        HeaderRestarts(a[1..], h, b, NewProfile(HeaderName(line)));
      } else {
        var (key, value) := SplitField(line);
        HeaderRestarts(a[1..], h, b, SetField(current, key, value));
      }
    }
  }

  /** When a group holds several headers, the profile of the last one is the
      result: lines before a later header have no effect, provided the group
      does not start with a stray field line. */
  lemma LastHeaderWins(a: seq<string>, h: string, b: seq<string>)
    requires IsHeader(h)
    requires a == [] || IsHeader(a[0])
    ensures BuildProfile(a + [h] + b) == BuildProfile([h] + b)
  {
    if a != [] {
      var ls := a + [h] + b;
      assert ls[0] == a[0] && ls[1..] == a[1..] + [h] + b;
      HeaderRestarts(a[1..], h, b, NewProfile(HeaderName(a[0])));
    } else {
      assert a + [h] + b == [h] + b;
    }
  }

  /** A field line is cut at its FIRST `=`: a key without `=` and any value,
      `=` signs included, come back stripped. */
  lemma SplitFieldFirstEquals(key: string, value: string)
    requires '=' !in key
    ensures SplitField(key + "=" + value) == (Strip(key), Strip(value))
  {
    var line := key + "=" + value;
    var sep := Find(line, '=');
    assert line[|key|] == '=';
    assert line[..|key|] == key;
    assert '=' in line;
    assert sep == |key|;
    assert line[sep + 1..] == value;
  }

  /** Stripping brackets from `[name]` gives back a name that neither
      starts nor ends with a bracket. */
  lemma BracketedName(name: string)
    requires name != ""
    requires Clean(name, IsBracket)
    ensures IsHeader("[" + name + "]")
    ensures HeaderName("[" + name + "]") == name
  {
    var line := "[" + name + "]";
    assert line[1..] == name + "]";
    assert (name + "]")[..|name|] == name;
    assert Trim(name + "]", IsBracket) == Trim(name, IsBracket) == name;
  }

  /** The credential field names: start with a letter, no `=`, no
      surrounding whitespace. */
  lemma CredentialKeyShape(key: string)
    requires key in {AccessKeyIdKey, SecretAccessKeyKey, SessionTokenKey}
    ensures |key| > 0 && key[0] == 'a'
    ensures '=' !in key
    ensures Clean(key, IsSpace)
  {
    if key == AccessKeyIdKey {
      assert key == "aws_access_key_id";
    } else if key == SecretAccessKeyKey {
      assert key == "aws_secret_access_key";
    } else {
      assert key == "aws_session_token";
    }
  }

  /** Reading one `key=value` line that `Dump` wrote sets that field to the
      written value. */
  lemma FieldLineRead(key: string, v: Option<string>, current: Profile, rest: seq<string>)
    requires key in {AccessKeyIdKey, SecretAccessKeyKey, SessionTokenKey}
    requires ValueClean(v)
    ensures BuildFrom(FieldLines(key, v) + rest, Some(current))
         == BuildFrom(rest, Some(if Truthy(v) then SetField(current, key, v.value) else current))
  {
    if Truthy(v) {
      var line := key + "=" + v.value;
      var ls := [line] + rest;
      assert FieldLines(key, v) + rest == ls;
      CredentialKeyShape(key);
      assert line[0] == 'a';
      assert !IsHeader(line);
      SplitFieldFirstEquals(key, v.value);
      assert SplitField(line) == (key, v.value);
      assert ls[0] == line && ls[1..] == rest;
    } else {
      assert FieldLines(key, v) + rest == rest;
    }
  }

  /** Parsing what `Dump` writes gives back the profile, up to the one
      normalisation the format imposes: a falsy field reads back as its
      default. */
  lemma DumpParsesBack(p: Profile)
    requires Storable(p)
    ensures BuildProfile(DumpLines(p)) == Ok(Normalize(p))
  {
    var hdr := "[" + p.name + "]";
    var a := FieldLines(AccessKeyIdKey, p.accessKeyId);
    var s := FieldLines(SecretAccessKeyKey, p.secretAccessKey);
    var t := FieldLines(SessionTokenKey, p.sessionToken);
    var ls := DumpLines(p);
    assert ls == [hdr] + (a + (s + t));
    BracketedName(p.name);
    var p0 := NewProfile(p.name);
    assert BuildFrom(ls, None) == BuildFrom(a + (s + t), Some(p0));
    FieldLineRead(AccessKeyIdKey, p.accessKeyId, p0, s + t);
    var p1 := if Truthy(p.accessKeyId) then SetField(p0, AccessKeyIdKey, p.accessKeyId.value) else p0;
    FieldLineRead(SecretAccessKeyKey, p.secretAccessKey, p1, t + []);
    var p2 := if Truthy(p.secretAccessKey) then SetField(p1, SecretAccessKeyKey, p.secretAccessKey.value) else p1;
    assert t + [] == t;
    FieldLineRead(SessionTokenKey, p.sessionToken, p2, []);
    var p3 := if Truthy(p.sessionToken) then SetField(p2, SessionTokenKey, p.sessionToken.value) else p2;
    assert p3 == Normalize(p);
  }
}

=== FILE: profiles.dfy ===
/** One credentials profile (the `AWSProfile` dataclass) and its INI-style
    rendering (`dump`). */
module Profiles {
  import opened Results
  import opened Text

  /** The dataclass field names, in declaration order; a field line's key is
      matched against these. */
  const NameKey: string := "profile_name"
  const AccessKeyIdKey: string := "aws_access_key_id"
  const SecretAccessKeyKey: string := "aws_secret_access_key"
  const SessionTokenKey: string := "aws_session_token"

  /** A profile: a name plus three optional credential fields. */
  datatype Profile = Profile(
    name: string,
    accessKeyId: Option<string>,
    secretAccessKey: Option<string>,
    sessionToken: Option<string>)

  /** `AWSProfile(profile_name=name)`: the two keys default to `None`, the
      session token to the empty string. */
  function NewProfile(name: string): (r: Profile)
    ensures r.name == name
    ensures !Truthy(r.accessKeyId) && !Truthy(r.secretAccessKey) && !Truthy(r.sessionToken)
  {
    Profile(name, None, None, Some(""))
  }

  /** Python truthiness of an optional string: `None` and `""` are both false. */
  predicate Truthy(v: Option<string>) {
    v.Some? && v.value != ""
  }

  /** The `key=value` line for one field, or nothing when the value is falsy. */
  function FieldLines(key: string, v: Option<string>): seq<string> {
    if Truthy(v) then [key + "=" + v.value] else []
  }

  /** The lines `dump` joins: `[name]` when the name is non-empty, then the
      truthy fields in declaration order. */
  function DumpLines(p: Profile): (r: seq<string>)
    ensures r == [] <==>
      p.name == "" && !Truthy(p.accessKeyId) && !Truthy(p.secretAccessKey) && !Truthy(p.sessionToken)
    ensures p.name != "" ==> r[0] == "[" + p.name + "]"
  {
    (if p.name != "" then ["[" + p.name + "]"] else [])
    + FieldLines(AccessKeyIdKey, p.accessKeyId)
    + FieldLines(SecretAccessKeyKey, p.secretAccessKey)
    + FieldLines(SessionTokenKey, p.sessionToken)
  }

  /** `AWSProfile.dump()`: the section text, lines joined by a newline,
      with no trailing newline. */
  function Dump(p: Profile): (r: string)
    ensures LineFree(p) ==>
      Split(r, IsNewline) == (if DumpLines(p) == [] then [""] else DumpLines(p))
  {
    var ls := DumpLines(p);
    assert LineFree(p) && ls != [] ==> Split(Join("\n", ls), IsNewline) == ls by {
      if LineFree(p) && ls != [] {
        forall i | 0 <= i < |ls| ensures SepFree(ls[i], IsNewline) {
          LineFreeDumpLine(p, i);
        }
        SplitJoin('\n', ls, IsNewline);
      }
    }
    Join("\n", ls)
  }

  /** `AWSProfile.copy()`: a new profile with the same four field values. */
  function Copy(p: Profile): (r: Profile)
    ensures r == p
  {
    Profile(p.name, p.accessKeyId, p.secretAccessKey, p.sessionToken)
  }

  /** A falsy optional key becomes `None`, the value a fresh profile has. */
  function NormalizeKey(v: Option<string>): Option<string> {
    if Truthy(v) then v else None
  }

  /** The profile a file holding `Dump(p)` reads back as: a falsy key is
      absent and a falsy session token is the empty string, the defaults of
      `NewProfile`. */
  function Normalize(p: Profile): (r: Profile)
    ensures r.name == p.name
    ensures Truthy(r.accessKeyId) == Truthy(p.accessKeyId)
    ensures Truthy(r.secretAccessKey) == Truthy(p.secretAccessKey)
    ensures Truthy(r.sessionToken) == Truthy(p.sessionToken)
  {
    Profile(
      p.name,
      NormalizeKey(p.accessKeyId),
      NormalizeKey(p.secretAccessKey),
      if Truthy(p.sessionToken) then p.sessionToken else Some(""))
  }

  /** The three credential fields carry the same values. */
  predicate SameCredentials(p: Profile, q: Profile) {
    && p.accessKeyId == q.accessKeyId
    && p.secretAccessKey == q.secretAccessKey
    && p.sessionToken == q.sessionToken
  }

  /** Neither the name nor a present value spans a line break. */
  predicate LineFree(p: Profile) {
    && SepFree(p.name, IsLineBreak)
    && (p.accessKeyId.Some? ==> SepFree(p.accessKeyId.value, IsLineBreak))
    && (p.secretAccessKey.Some? ==> SepFree(p.secretAccessKey.value, IsLineBreak))
    && (p.sessionToken.Some? ==> SepFree(p.sessionToken.value, IsLineBreak))
  }

  /** A present value with no surrounding whitespace, so that stripping a
      field line leaves it intact. */
  predicate ValueClean(v: Option<string>) {
    v.Some? ==> Clean(v.value, IsSpace)
  }

  /** A profile the file format carries faithfully: a non-empty name that
      neither starts nor ends with a bracket, and no line break anywhere or
      whitespace around a value. */
  predicate Storable(p: Profile) {
    && p.name != ""
    && Clean(p.name, IsBracket)
    && LineFree(p)
    && ValueClean(p.accessKeyId)
    && ValueClean(p.secretAccessKey)
    && ValueClean(p.sessionToken)
  }

  /** The rendering of a profile and of its normal form coincide, and
      normalising twice changes nothing: a falsy field is simply omitted. */
  lemma NormalizeDumpsAlike(p: Profile)
    ensures Dump(Normalize(p)) == Dump(p)
    ensures Normalize(Normalize(p)) == Normalize(p)
  {
  }

  /** A fresh profile is already in normal form and renders as its header
      alone. */
  lemma NewProfileRendersHeader(name: string)
    requires name != ""
    ensures Normalize(NewProfile(name)) == NewProfile(name)
    ensures Dump(NewProfile(name)) == "[" + name + "]"
  {
  }

  /** `Dump` text read back line by line is exactly the header followed by
      one `key=value` line per truthy field in declaration order, with no
      trailing empty line; a profile with nothing to write yields one empty
      line. */
  lemma {:induction false} DumpLinesRead(p: Profile, isSep: char -> bool)
    requires LineFree(p)
    requires forall c :: isSep(c) ==> IsLineBreak(c)
    requires isSep('\n')
    ensures Split(Dump(p), isSep) == (if DumpLines(p) == [] then [""] else DumpLines(p))
  {
    var ls := DumpLines(p);
    if ls == [] {
      assert Dump(p) == "";
    } else {
      forall i | 0 <= i < |ls| ensures SepFree(ls[i], isSep) {
        LineFreeDumpLine(p, i);
      }
      SplitJoin('\n', ls, isSep);
    }
  }

  /** The rendering names every credential field that has a value, as
      the test suite checks for the secret. */
  lemma DumpMentionsField(p: Profile, key: string, v: Option<string>)
    requires (key, v) in {(AccessKeyIdKey, p.accessKeyId), (SecretAccessKeyKey, p.secretAccessKey),
                          (SessionTokenKey, p.sessionToken)}
    requires Truthy(v)
    ensures Contains(Dump(p), key)
  {
    var h := if p.name != "" then ["[" + p.name + "]"] else [];
    var a := FieldLines(AccessKeyIdKey, p.accessKeyId);
    var s := FieldLines(SecretAccessKeyKey, p.secretAccessKey);
    var t := FieldLines(SessionTokenKey, p.sessionToken);
    var line := key + "=" + v.value;
    var i := if key == AccessKeyIdKey then |h|
      else if key == SecretAccessKeyKey then |h| + |a|
      else |h| + |a| + |s|;
    assert DumpLines(p) == h + a + s + t;
    assert DumpLines(p)[i] == line;
    JoinContains("\n", DumpLines(p), i);
    ContainsSpliced([], key, "=" + v.value);
    assert [] + key + ("=" + v.value) == line;
    ContainsInside(Dump(p), line, key);
  }

  /** Each line `Dump` writes is free of line breaks when the profile is. */
  lemma LineFreeDumpLine(p: Profile, i: int)
    requires LineFree(p)
    requires 0 <= i < |DumpLines(p)|
    ensures SepFree(DumpLines(p)[i], IsLineBreak)
  {
    var h := if p.name != "" then ["[" + p.name + "]"] else [];
    var a := FieldLines(AccessKeyIdKey, p.accessKeyId);
    var s := FieldLines(SecretAccessKeyKey, p.secretAccessKey);
    var t := FieldLines(SessionTokenKey, p.sessionToken);
    assert DumpLines(p) == h + a + s + t;
  }
}

=== FILE: results.dfy ===
/** Optional values, the error kinds the credentials tool raises, and a
    failure-compatible Result so that operations can be chained with `:-`. */
module Results {

  /** Python's `Optional[str]`: `None` or a present value. */
  datatype Option<+T> = None | Some(value: T)

  /** The exceptions the credentials module raises, one constructor each. */
  datatype Error =
    /** ProfileError: the named profile is not in the store. */
    | ProfileNotFound(name: string)
    /** ProfileError: strict injection of a name that is already present. */
    | ProfileExists(name: string)
    /** ValueError: a field line was met before any `[name]` header. */
    | FieldOutsideProfile(field: string)
    /** UnboundLocalError: a profile was built from no lines at all. */
    | EmptyProfileText
    /** ValueError: the access key id or the secret is missing from the environment. */
    | MissingEnvCredentials
    /** ValueError: the clipboard text does not mention `aws_access_key_id`. */
    | ClipboardMissingKey
    /** UnboundLocalError: the profile source is neither the clipboard nor the environment. */
    | UnknownSource(source: string)

  /** Either a value or the error that stopped the computation. */
  datatype Result<+T> = Ok(value: T) | Err(error: Error) {

    predicate IsFailure() {
      Err?
    }

    function PropagateFailure<U>(): Result<U>
      requires Err?
    {
      Err(error)
    }

    function Extract(): T
      requires Ok?
    {
      value
    }
  }
}

=== FILE: roundtrip.dfy ===
/** What `save` writes, read back the way the constructor reads the
    credentials file. */
module RoundTrip {
  import opened Results
  import opened Text
  import opened Profiles
  import opened Parser
  import opened ProfileStore
  import opened Loader
  import opened Credentials

  /** The store with every profile normalised; the order is unchanged. */
  function NormalizeStore(s: Store): (r: Store)
    ensures r.order == s.order
    ensures forall k :: k in r.profiles <==> k in s.profiles
    ensures forall k :: k in s.profiles ==> r.profiles[k] == Normalize(s.profiles[k])
    ensures Valid(s) ==> Valid(r)
    ensures Coherent(s) ==> Coherent(r)
  {
    Store(s.order, map k | k in s.profiles :: Normalize(s.profiles[k]))
  }

  /** The line groups of a saved file: the rendering of each profile, in
      store order. */
  function SavedSections(ks: seq<string>, profiles: map<string, Profile>): (r: seq<seq<string>>)
    requires forall i :: 0 <= i < |ks| ==> ks[i] in profiles
    ensures |r| == |ks|
    ensures forall i :: 0 <= i < |ks| ==> r[i] == DumpLines(profiles[ks[i]])
  {
    if ks == [] then [] else [DumpLines(profiles[ks[0]])] + SavedSections(ks[1..], profiles)
  }

  /** A saved file, cut at `\n` alone or at every line break, is the lines
      of each rendering in store order followed by two empty lines: the one
      after the last section and the one of the final newline. */
  lemma {:induction false} SavedLines(ks: seq<string>, profiles: map<string, Profile>, isSep: char -> bool)
    requires forall i :: 0 <= i < |ks| ==>
      ks[i] in profiles && LineFree(profiles[ks[i]]) && profiles[ks[i]].name != ""
    requires forall c :: isSep(c) ==> IsLineBreak(c)
    requires isSep('\n')
    ensures Split(SavedBody(ks, profiles) + "\n", isSep)
         == Flatten(SavedSections(ks, profiles)) + ["", ""]
    decreases |ks|
  {
    if ks == [] {
      SplitAtSep("", '\n', "", isSep);
      assert "" + ['\n'] + "" == SavedBody(ks, profiles) + "\n";
    } else {
      var p := profiles[ks[0]];
      var ks' := ks[1..];
      SavedLines(ks', profiles, isSep);
      DumpLinesRead(p, isSep);
      assert SavedBody(ks, profiles) == Dump(p) + "\n" + SavedBody(ks', profiles);
      SavedLinesStep(Dump(p), DumpLines(p), SavedBody(ks', profiles),
        Flatten(SavedSections(ks', profiles)), isSep);
      assert SavedSections(ks, profiles) == [DumpLines(p)] + SavedSections(ks', profiles);
      FlattenCons(DumpLines(p), SavedSections(ks', profiles));
    }
  }

  /** One more section in front of a saved file: its lines come first. */
  lemma SavedLinesStep(d: string, ls: seq<string>, body: string, rest: seq<string>, isSep: char -> bool)
    requires isSep('\n')
    requires Split(d, isSep) == ls
    requires Split(body + "\n", isSep) == rest + ["", ""]
    ensures Split(d + "\n" + body + "\n", isSep) == ls + rest + ["", ""]
  {
    assert d + "\n" + body + "\n" == d + "\n" + (body + "\n");
    SplitSection(d, body + "\n", isSep);
  }

  /** A section, a newline and the rest split as the section's pieces
      followed by the rest's. */
  lemma SplitSection(d: string, tail: string, isSep: char -> bool)
    requires isSep('\n')
    ensures Split(d + "\n" + tail, isSep) == Split(d, isSep) + Split(tail, isSep)
  {
    SplitAtSep(d, '\n', tail, isSep);
  }

  /** Flattening a group in front of others puts its lines in front. */
  lemma FlattenCons(g: seq<string>, gs: seq<seq<string>>)
    ensures Flatten([g] + gs) == g + Flatten(gs)
  {
    assert ([g] + gs)[1..] == gs;
  }

  /** The file `save` writes, cut at each `\n`: every rendering's lines in
      store order, then two empty lines. */
  lemma SaveTextLines(s: Store)
    requires Valid(s)
    requires forall k :: k in s.profiles ==> LineFree(s.profiles[k]) && s.profiles[k].name != ""
    ensures Split(SaveText(s), IsNewline) == Flatten(SavedSections(s.order, s.profiles)) + ["", ""]
  {
    forall i | 0 <= i < |s.order|
      ensures s.order[i] in s.profiles && LineFree(s.profiles[s.order[i]]) && s.profiles[s.order[i]].name != ""
    {
      assert s.order[i] in s.order;
    }
    SavedLines(s.order, s.profiles, IsNewline);
  }

  /** The empty lines at the end of a saved file are skipped. */
  lemma TrailingBlanks(lines: seq<string>)
    ensures Load(lines + ["", ""]) == Load(lines)
  {
    BlankLineIgnored(lines + [""], "", []);
    BlankLineIgnored(lines, "", []);
    assert lines + ["", ""] == lines + [""] + [""] + [];
    assert lines + [""] + [] == lines + [""];
    assert lines + [] == lines;
  }

  /** A field line `Dump` writes is a stripped non-header line. */
  lemma FieldLineShape(key: string, v: Option<string>)
    requires key in {AccessKeyIdKey, SecretAccessKeyKey, SessionTokenKey}
    requires Truthy(v) && ValueClean(v)
    ensures Stripped(key + "=" + v.value) && !IsHeader(key + "=" + v.value)
  {
    var line := key + "=" + v.value;
    CredentialKeyShape(key);
    assert line[0] == 'a';
    assert line[|line| - 1] == v.value[|v.value| - 1];
    assert Clean(line, IsSpace);
  }

  /** The rendering of a storable profile is one section of the file. */
  lemma DumpIsSection(p: Profile)
    requires Storable(p)
    ensures Section(DumpLines(p))
  {
    var hdr := "[" + p.name + "]";
    BracketedName(p.name);
    assert Clean(hdr, IsSpace);
    var a := FieldLines(AccessKeyIdKey, p.accessKeyId);
    var s := FieldLines(SecretAccessKeyKey, p.secretAccessKey);
    var t := FieldLines(SessionTokenKey, p.sessionToken);
    var fields := a + s + t;
    assert DumpLines(p) == [hdr] + fields;
    if Truthy(p.accessKeyId) { FieldLineShape(AccessKeyIdKey, p.accessKeyId); }
    if Truthy(p.secretAccessKey) { FieldLineShape(SecretAccessKeyKey, p.secretAccessKey); }
    if Truthy(p.sessionToken) { FieldLineShape(SessionTokenKey, p.sessionToken); }
    assert forall i :: 0 <= i < |fields| ==> Stripped(fields[i]) && !IsHeader(fields[i]);
  }

  /** Every group of a saved file is a section. */
  lemma SavedAreSections(s: Store)
    requires Valid(s)
    requires forall k :: k in s.profiles ==> Storable(s.profiles[k])
    ensures forall i :: 0 <= i < |s.order| ==> Section(SavedSections(s.order, s.profiles)[i])
  {
    forall i | 0 <= i < |s.order| ensures Section(SavedSections(s.order, s.profiles)[i]) {
      assert s.order[i] in s.order;
      DumpIsSection(s.profiles[s.order[i]]);
    }
  }

  /** The profiles the sections of a saved file build are the normalised
      profiles of the store, and their names are the store's keys. */
  lemma SavedProfiles(s: Store)
    requires Valid(s) && Coherent(s)
    requires forall k :: k in s.profiles ==> Storable(s.profiles[k])
    requires forall i :: 0 <= i < |s.order| ==> Section(SavedSections(s.order, s.profiles)[i])
    ensures var ps := SectionProfiles(SavedSections(s.order, s.profiles));
      Refiled(s, ps)
  {
    var ps := SectionProfiles(SavedSections(s.order, s.profiles));
    forall i | 0 <= i < |ps| ensures s.order[i] in s.profiles && ps[i] == Normalize(s.profiles[s.order[i]]) {
      assert s.order[i] in s.order;
      DumpParsesBack(s.profiles[s.order[i]]);
    }
    assert Names(ps) == s.order;
  }

  /** Loading a saved file reads exactly its sections. */
  lemma SavedFileIsSections(s: Store)
    requires Valid(s)
    requires forall k :: k in s.profiles ==> Storable(s.profiles[k])
    ensures LoadText(SaveText(s)) == Load(Flatten(SavedSections(s.order, s.profiles)))
  {
    forall i | 0 <= i < |s.order|
      ensures s.order[i] in s.profiles && LineFree(s.profiles[s.order[i]]) && s.profiles[s.order[i]].name != ""
    {
      assert s.order[i] in s.order;
    }
    SavedLines(s.order, s.profiles, IsLineBreak);
    TrailingBlanks(Flatten(SavedSections(s.order, s.profiles)));
  }

  /** The profiles re-read from a saved file, filed under their names. */
  predicate Refiled(s: Store, ps: seq<Profile>) {
    && Valid(s)
    && |ps| == |s.order|
    && (forall i :: 0 <= i < |ps| ==> s.order[i] in s.profiles && ps[i] == Normalize(s.profiles[s.order[i]]))
    && Names(ps) == s.order
  }

  /** Filing the re-read profiles keeps the store's key order and lists no
      key the store lacks. */
  lemma RefiledKeys(s: Store, ps: seq<Profile>)
    requires Refiled(s, ps)
    ensures PutAll(Empty, ps).order == s.order
    ensures forall k :: k in PutAll(Empty, ps).profiles ==> k in s.profiles
  {
    forall i | 0 <= i < |ps| ensures ps[i].name !in Empty.profiles { }
    PutAllFresh(Empty, ps);
    assert [] + Names(ps) == s.order;
  }

  /** The key at position `i` is filed with the normalised profile. */
  lemma RefiledAt(s: Store, ps: seq<Profile>, i: nat)
    requires Refiled(s, ps)
    requires i < |ps|
    ensures s.order[i] in PutAll(Empty, ps).profiles
    ensures PutAll(Empty, ps).profiles[s.order[i]] == Normalize(s.profiles[s.order[i]])
  {
    forall j | 0 <= j < |ps| ensures ps[j].name !in Empty.profiles { }
    PutAllFresh(Empty, ps);
    assert Names(ps)[i] == s.order[i];
  }

  /** Filing the normalised profiles under their distinct names, in store
      order, rebuilds the normalised store. */
  lemma RefiledStore(s: Store, ps: seq<Profile>)
    requires Refiled(s, ps)
    ensures PutAll(Empty, ps) == NormalizeStore(s)
  {
    var r := PutAll(Empty, ps);
    var n := NormalizeStore(s);
    RefiledKeys(s, ps);
    forall k | k in n.profiles ensures k in r.profiles && r.profiles[k] == n.profiles[k] {
      RefiledKey(s, ps, k);
    }
    SameEntries(r.profiles, n.profiles);
  }

  /** Two maps with the same keys and the same value under each are equal. */
  lemma SameEntries(a: map<string, Profile>, b: map<string, Profile>)
    requires forall k :: k in a ==> k in b
    requires forall k :: k in b ==> k in a && a[k] == b[k]
    ensures a == b
  {
  }

  /** Each key of the store is filed with its normalised profile. */
  lemma RefiledKey(s: Store, ps: seq<Profile>, k: string)
    requires Refiled(s, ps)
    requires k in s.profiles
    ensures k in PutAll(Empty, ps).profiles
    ensures PutAll(Empty, ps).profiles[k] == Normalize(s.profiles[k])
  {
    assert k in s.order;
    var i :| 0 <= i < |s.order| && s.order[i] == k;
    RefiledAt(s, ps, i);
  }

  /** Saving a non-empty store of storable profiles and loading the file
      back yields the same keys in the same order, each with its profile
      up to normalisation. */
  lemma SaveLoad(s: Store)
    requires Valid(s) && Coherent(s)
    requires s.order != []
    requires forall k :: k in s.profiles ==> Storable(s.profiles[k])
    ensures LoadText(SaveText(s)) == Ok(NormalizeStore(s))
  {
    var gs := SavedSections(s.order, s.profiles);
    SavedAreSections(s);
    SavedProfiles(s);
    calc {
      LoadText(SaveText(s));
      { SavedFileIsSections(s); }
      Load(Flatten(gs));
      { LoadSections(gs); }
      Ok(PutAll(Empty, SectionProfiles(gs)));
      { RefiledStore(s, SectionProfiles(gs)); }
      Ok(NormalizeStore(s));
    }
  }

  /** With profiles already in normal form the round trip is exact. */
  lemma SaveLoadExact(s: Store)
    requires Valid(s) && Coherent(s)
    requires s.order != []
    requires forall k :: k in s.profiles ==> Storable(s.profiles[k]) && Normalize(s.profiles[k]) == s.profiles[k]
    ensures LoadText(SaveText(s)) == Ok(s)
  {
    SaveLoad(s);
    assert NormalizeStore(s).profiles == s.profiles;
  }

  /** An empty store saves as a lone newline, and that file cannot be
      loaded: the final flush has no lines to build a profile from. */
  lemma SaveEmptyUnloadable()
    ensures SaveText(Empty) == "\n"
    ensures LoadText(SaveText(Empty)) == Err(EmptyProfileText)
  {
    SavedLines([], map[], IsLineBreak);
    assert Split("\n", IsLineBreak) == ["", ""];
    BlankFileFails(["", ""]);
  }
}

=== FILE: store.dfy ===
/** The `profiles` dictionary of `AWSCredentials`: an insertion-ordered map
    from profile name to profile, with Python `dict` assignment and deletion. */
module ProfileStore {
  import opened Results
  import opened Profiles

  /** Keys in insertion order plus the key-to-profile map. */
  datatype Store = Store(order: seq<string>, profiles: map<string, Profile>)

  /** No key is listed twice. */
  predicate Unique(ks: seq<string>) {
    forall i, j :: 0 <= i < j < |ks| ==> ks[i] != ks[j]
  }

  /** The representation invariant of a dictionary: each key once, and the
      listed keys are exactly the mapped ones. */
  predicate Valid(s: Store) {
    && Unique(s.order)
    && (forall k :: k in s.order ==> k in s.profiles)
    && (forall k :: k in s.profiles ==> k in s.order)
  }

  /** Every profile is filed under its own name. */
  predicate Coherent(s: Store) {
    forall k :: k in s.profiles ==> s.profiles[k].name == k
  }

  /** The empty dictionary. */
  const Empty: Store := Store([], map[])

  /** `profiles[k] = v`: a new key goes to the end, an existing key keeps its
      place and takes the new value. */
  function Put(s: Store, k: string, v: Profile): (r: Store)
    requires Valid(s)
    ensures Valid(r)
    ensures k in r.profiles && r.profiles[k] == v
    ensures forall x :: x != k ==> (x in r.profiles <==> x in s.profiles)
    ensures forall x :: x != k && x in s.profiles ==> r.profiles[x] == s.profiles[x]
    ensures k in s.profiles ==> r.order == s.order
    ensures k !in s.profiles ==> r.order == s.order + [k]
  {
    if k in s.profiles then Store(s.order, s.profiles[k := v])
    else Store(s.order + [k], s.profiles[k := v])
  }

  /** The key order after `profiles[k] = v`: unchanged when `k` is already
      listed, `k` appended otherwise. */
  function Appended(ks: seq<string>, k: string): seq<string> {
    if k in ks then ks else ks + [k]
  }

  /** The position of `k` in `ks`. */
  function IndexOf(ks: seq<string>, k: string): (i: nat)
    requires k in ks
    ensures i < |ks| && ks[i] == k && k !in ks[..i]
  {
    if ks[0] == k then 0
    else
      var j := IndexOf(ks[1..], k);
      assert ks[1..][..j] == ks[1..j + 1];
      j + 1
  }

  /** `ks` with position `i` cut out; distinct keys stay distinct. */
  function CutAt(ks: seq<string>, i: nat): (r: seq<string>)
    requires i < |ks|
    requires Unique(ks)
    ensures |r| == |ks| - 1
    ensures Unique(r)
    ensures forall x :: x in r <==> x in ks && x != ks[i]
  {
    var r := ks[..i] + ks[i + 1..];
    assert forall j :: 0 <= j < |r| ==> r[j] == (if j < i then ks[j] else ks[j + 1]);
    assert forall x :: x in ks && x != ks[i] ==> x in r by {
      forall x | x in ks && x != ks[i] ensures x in r {
        var j :| 0 <= j < |ks| && ks[j] == x;
        if j < i { assert r[j] == x; } else { assert r[j - 1] == x; }
      }
    }
    r
  }

  /** `del profiles[k]`: the key leaves, the others keep their values and
      their relative order. */
  function Remove(s: Store, k: string): (r: Store)
    requires Valid(s)
    ensures Valid(r)
    ensures k !in r.profiles
    ensures forall x :: x != k ==> (x in r.profiles <==> x in s.profiles)
    ensures forall x :: x != k && x in s.profiles ==> r.profiles[x] == s.profiles[x]
    ensures k in s.profiles ==>
      var i := IndexOf(s.order, k); i <= |r.order| && s.order == r.order[..i] + [k] + r.order[i..]
    ensures k !in s.profiles ==> r == s
  {
    if k in s.profiles then
      var i := IndexOf(s.order, k);
      var r := Store(CutAt(s.order, i), s.profiles - {k});
      assert s.order == s.order[..i] + [k] + s.order[i + 1..];
      assert r.order[..i] == s.order[..i] && r.order[i..] == s.order[i + 1..];
      r
    else
      assert s.profiles - {k} == s.profiles;
      s
  }

  /** Assigning a key not yet present and then deleting it restores the
      dictionary exactly, order included. */
  lemma RemoveUndoesPut(s: Store, k: string, v: Profile)
    requires Valid(s)
    requires k !in s.profiles
    ensures Remove(Put(s, k, v), k) == s
  {
    var t := Put(s, k, v);
    var n := |s.order|;
    assert t.order[..n] == s.order;
    assert k !in s.order;
    assert IndexOf(t.order, k) == n;
    assert CutAt(t.order, n) == s.order by {
      assert t.order[n + 1..] == [];
    }
    assert t.profiles - {k} == s.profiles;
  }

  /** A second assignment to the same key replaces the first. */
  lemma PutOverwrites(s: Store, k: string, v: Profile, w: Profile)
    requires Valid(s)
    ensures Put(Put(s, k, v), k, w) == Put(s, k, w)
  {
  }

  /** Assigning each profile under its name, in order: the dictionary a
      sequence of `profiles[p.name] = p` statements leaves behind. */
  function PutAll(s: Store, ps: seq<Profile>): (r: Store)
    requires Valid(s)
    ensures Valid(r)
    ensures Coherent(s) ==> Coherent(r)
    decreases |ps|
  {
    if ps == [] then s else PutAll(Put(s, ps[0].name, ps[0]), ps[1..])
  }

  /** The names of a sequence of profiles. */
  function Names(ps: seq<Profile>): (r: seq<string>)
    ensures |r| == |ps|
    ensures forall i :: 0 <= i < |ps| ==> r[i] == ps[i].name
  {
    if ps == [] then [] else [ps[0].name] + Names(ps[1..])
  }

  /** The names of `ns` not in `seen`, each once, in order of first
      appearance. */
  function FirstAppearances(ns: seq<string>, seen: seq<string>): seq<string>
    decreases |ns|
  {
    if ns == [] then []
    else if ns[0] in seen then FirstAppearances(ns[1..], seen)
    else [ns[0]] + FirstAppearances(ns[1..], seen + [ns[0]])
  }

  /** The last profile of `ps` named `k`, if any. */
  function LastNamed(ps: seq<Profile>, k: string): (r: Option<Profile>)
    ensures r.Some? <==> k in Names(ps)
    ensures r.Some? ==> r.value.name == k
    decreases |ps|
  {
    if ps == [] then None
    else
      var later := LastNamed(ps[1..], k);
      assert Names(ps) == [ps[0].name] + Names(ps[1..]);
      if later.Some? then later
      else if ps[0].name == k then Some(ps[0])
      else None
  }

  /** Assigning a sequence of profiles lists each new name once, in order
      of first appearance, after the keys already there; a repeated name
      keeps its first place. */
  lemma {:induction false} PutAllOrder(s: Store, ps: seq<Profile>)
    requires Valid(s)
    ensures PutAll(s, ps).order == s.order + FirstAppearances(Names(ps), s.order)
    decreases |ps|
  {
    if ps != [] {
      var t := Put(s, ps[0].name, ps[0]);
      PutAllOrder(t, ps[1..]);
      assert Names(ps) == [ps[0].name] + Names(ps[1..]);
      PutStepOrder(s, ps[0], Names(ps[1..]));
    }
  }

  /** One assignment, seen from the order of first appearances. */
  lemma PutStepOrder(s: Store, p: Profile, ns: seq<string>)
    requires Valid(s)
    ensures s.order + FirstAppearances([p.name] + ns, s.order)
         == Put(s, p.name, p).order + FirstAppearances(ns, Put(s, p.name, p).order)
  {
    if p.name in s.order {
      FirstAppearancesSeen(p.name, ns, s.order);
    } else {
      FirstAppearancesUnseen(p.name, ns, s.order);
      assert s.order + ([p.name] + FirstAppearances(ns, s.order + [p.name]))
          == (s.order + [p.name]) + FirstAppearances(ns, s.order + [p.name]);
    }
  }

  lemma FirstAppearancesSeen(n: string, ns: seq<string>, seen: seq<string>)
    requires n in seen
    ensures FirstAppearances([n] + ns, seen) == FirstAppearances(ns, seen)
  {
    assert ([n] + ns)[1..] == ns;
  }

  lemma FirstAppearancesUnseen(n: string, ns: seq<string>, seen: seq<string>)
    requires n !in seen
    ensures FirstAppearances([n] + ns, seen) == [n] + FirstAppearances(ns, seen + [n])
  {
    assert ([n] + ns)[1..] == ns;
  }

  /** After assigning a sequence of profiles each name holds the LAST
      profile given under it; names never assigned keep their old value. */
  lemma {:induction false} PutAllLastWins(s: Store, ps: seq<Profile>, k: string)
    requires Valid(s)
    ensures k in PutAll(s, ps).profiles <==> k in s.profiles || k in Names(ps)
    ensures LastNamed(ps, k).Some? ==> PutAll(s, ps).profiles[k] == LastNamed(ps, k).value
    ensures LastNamed(ps, k).None? && k in s.profiles ==> PutAll(s, ps).profiles[k] == s.profiles[k]
    decreases |ps|
  {
    if ps != [] {
      var t := Put(s, ps[0].name, ps[0]);
      assert Names(ps) == [ps[0].name] + Names(ps[1..]);
      PutAllLastWins(t, ps[1..], k);
    } else {
      assert Names(ps) == [];
    }
  }

  /** Distinct names none of which was seen before all appear, in order. */
  lemma {:induction false} FirstAppearancesFresh(ns: seq<string>, seen: seq<string>)
    requires Unique(ns)
    requires forall i :: 0 <= i < |ns| ==> ns[i] !in seen
    ensures FirstAppearances(ns, seen) == ns
    decreases |ns|
  {
    if ns != [] {
      var rest := ns[1..];
      forall i | 0 <= i < |rest| ensures rest[i] !in seen + [ns[0]] {
        assert ns[0] != ns[i + 1];
      }
      FirstAppearancesFresh(rest, seen + [ns[0]]);
      assert ns == [ns[0]] + rest;
    }
  }

  /** With distinct names, the last profile named like `ps[i]` is `ps[i]`. */
  lemma {:induction false} LastNamedDistinct(ps: seq<Profile>, i: nat)
    requires i < |ps|
    requires Unique(Names(ps))
    ensures LastNamed(ps, ps[i].name) == Some(ps[i])
    decreases |ps|
  {
    var rest := ps[1..];
    assert Names(ps) == [ps[0].name] + Names(rest);
    assert Unique(Names(rest));
    if i == 0 {
      forall j | 0 <= j < |rest| ensures Names(rest)[j] != ps[0].name {
        assert Names(ps)[0] != Names(ps)[j + 1];
      }
      assert ps[0].name !in Names(rest);
    } else {
      LastNamedDistinct(rest, i - 1);
      assert rest[i - 1] == ps[i];
    }
  }

  /** Assigning profiles whose names are all new and distinct appends the
      names in order and files each profile under its name. */
  lemma PutAllFresh(s: Store, ps: seq<Profile>)
    requires Valid(s)
    requires Unique(Names(ps))
    requires forall i :: 0 <= i < |ps| ==> ps[i].name !in s.profiles
    ensures PutAll(s, ps).order == s.order + Names(ps)
    ensures forall i :: 0 <= i < |ps| ==>
      ps[i].name in PutAll(s, ps).profiles && PutAll(s, ps).profiles[ps[i].name] == ps[i]
    ensures forall k :: k in PutAll(s, ps).profiles <==> k in s.profiles || k in Names(ps)
    ensures forall k :: k in s.profiles ==> PutAll(s, ps).profiles[k] == s.profiles[k]
  {
    PutAllOrder(s, ps);
    FirstAppearancesFresh(Names(ps), s.order);
    forall i | 0 <= i < |ps|
      ensures ps[i].name in PutAll(s, ps).profiles && PutAll(s, ps).profiles[ps[i].name] == ps[i]
    {
      LastNamedDistinct(ps, i);
      PutAllLastWins(s, ps, ps[i].name);
    }
    forall k ensures k in PutAll(s, ps).profiles <==> k in s.profiles || k in Names(ps) {
      PutAllLastWins(s, ps, k);
    }
    forall k | k in s.profiles ensures PutAll(s, ps).profiles[k] == s.profiles[k] {
      PutAllLastWins(s, ps, k);
      assert k !in Names(ps);
    }
  }
}

=== FILE: text.dfy ===
/** The handful of Python string operations the credentials module relies on:
    `strip`, `find`, `join`, `split`, `in` (substring) and ASCII `lower`. */
module Text {

  /** Characters removed by Python's argument-less `str.strip()`
      (CPython's whitespace table, by code point). */
  predicate IsSpace(c: char) {
    var n := c as int;
    || (0x09 <= n <= 0x0D)
    || (0x1C <= n <= 0x20)
    || n == 0x85
    || n == 0xA0
    || n == 0x1680
    || (0x2000 <= n <= 0x200A)
    || n == 0x2028
    || n == 0x2029
    || n == 0x202F
    || n == 0x205F
    || n == 0x3000
  }

  /** Characters removed by `str.strip('[]')`. */
  predicate IsBracket(c: char) {
    c == '[' || c == ']'
  }

  /** Line terminators of a file read in text mode (universal newlines). */
  predicate IsLineBreak(c: char) {
    c == '\n' || c == '\r'
  }

  /** The separator of `str.split('\n')`. */
  predicate IsNewline(c: char) {
    c == '\n'
  }

  /** True when neither end of `s` is a character `drop` removes. */
  predicate Clean(s: string, drop: char -> bool) {
    s == [] || (!drop(s[0]) && !drop(s[|s| - 1]))
  }

  /** Python's `s.strip(chars)`, with `drop` deciding membership in `chars`:
      droppable characters are cut from both ends until neither end is
      droppable; a string whose ends are already kept is left as it is. */
  function Trim(s: string, drop: char -> bool): (r: string)
    ensures |r| <= |s|
    ensures Clean(r, drop)
    ensures Clean(s, drop) ==> r == s
    decreases |s|
  {
    if s != [] && drop(s[0]) then Trim(s[1..], drop)
    else if s != [] && drop(s[|s| - 1]) then Trim(s[..|s| - 1], drop)
    else s
  }

  /** Every character of `t` is droppable. */
  predicate AllDrop(t: string, drop: char -> bool) {
    forall i :: 0 <= i < |t| ==> drop(t[i])
  }

  /** How many characters `Trim` cuts from the front of `s`. */
  function LeftCut(s: string, drop: char -> bool): nat
    decreases |s|
  {
    if s != [] && drop(s[0]) then 1 + LeftCut(s[1..], drop)
    else if s != [] && drop(s[|s| - 1]) then LeftCut(s[..|s| - 1], drop)
    else 0
  }

  /** `s[k..k + |r|]` is `r` with only droppable characters around it. */
  predicate MiddleOf(s: string, k: nat, r: string, drop: char -> bool) {
    && k + |r| <= |s|
    && s[k..k + |r|] == r
    && AllDrop(s[..k], drop)
    && AllDrop(s[k + |r|..], drop)
  }

  /** A droppable first character widens the margin in front of a middle
      slice of the rest. */
  lemma MiddleAfterDropped(s: string, k: nat, r: string, drop: char -> bool)
    requires s != [] && drop(s[0])
    requires MiddleOf(s[1..], k, r, drop)
    ensures MiddleOf(s, k + 1, r, drop)
  {
    var t := s[1..];
    assert s[k + 1..k + 1 + |r|] == t[k..k + |r|];
    assert s[..k + 1] == [s[0]] + t[..k];
    assert s[k + 1 + |r|..] == t[k + |r|..];
  }

  /** A droppable last character widens the margin behind a middle slice of
      the rest. */
  lemma MiddleBeforeDropped(s: string, k: nat, r: string, drop: char -> bool)
    requires s != [] && drop(s[|s| - 1])
    requires MiddleOf(s[..|s| - 1], k, r, drop)
    ensures MiddleOf(s, k, r, drop)
  {
    var t := s[..|s| - 1];
    assert s[k..k + |r|] == t[k..k + |r|];
    assert s[..k] == t[..k];
    assert s[k + |r|..] == t[k + |r|..] + [s[|s| - 1]];
  }

  /** Trimming a droppable first character: the middle slice found in the
      rest is one position further in. */
  lemma TrimFrontStep(s: string, drop: char -> bool)
    requires s != [] && drop(s[0])
    requires MiddleOf(s[1..], LeftCut(s[1..], drop), Trim(s[1..], drop), drop)
    ensures MiddleOf(s, LeftCut(s, drop), Trim(s, drop), drop)
  {
    MiddleAfterDropped(s, LeftCut(s[1..], drop), Trim(s[1..], drop), drop);
  }

  /** Trimming a droppable last character: the middle slice found in the
      rest stays where it is. */
  lemma TrimBackStep(s: string, drop: char -> bool)
    requires s != [] && !drop(s[0]) && drop(s[|s| - 1])
    requires MiddleOf(s[..|s| - 1], LeftCut(s[..|s| - 1], drop), Trim(s[..|s| - 1], drop), drop)
    ensures MiddleOf(s, LeftCut(s, drop), Trim(s, drop), drop)
  {
    MiddleBeforeDropped(s, LeftCut(s[..|s| - 1], drop), Trim(s[..|s| - 1], drop), drop);
  }

  /** What `Trim` keeps is a middle slice of `s` with only droppable
      characters on either side of it; with `Clean` on the result this
      pins `Trim` down completely. */
  lemma {:induction false} TrimKeepsMiddle(s: string, drop: char -> bool)
    ensures MiddleOf(s, LeftCut(s, drop), Trim(s, drop), drop)
    decreases |s|
  {
    if s != [] && drop(s[0]) {
      TrimKeepsMiddle(s[1..], drop);
      TrimFrontStep(s, drop);
    } else if s != [] && drop(s[|s| - 1]) {
      TrimKeepsMiddle(s[..|s| - 1], drop);
      TrimBackStep(s, drop);
    } else {
      assert s[..0] == [] && s[|s|..] == [];
    }
  }

  /** Python's `s.strip()`. */
  function Strip(s: string): string {
    Trim(s, IsSpace)
  }

  /** Python's `s.strip('[]')`. */
  function StripBrackets(s: string): string {
    Trim(s, IsBracket)
  }

  /** Stripping twice is stripping once. */
  lemma TrimIdempotent(s: string, drop: char -> bool)
    ensures Trim(Trim(s, drop), drop) == Trim(s, drop)
  {
  }

  /** Python's `s.find(c)`: the index of the first `c`, or -1 when there is none. */
  function Find(s: string, c: char): (r: int)
    ensures -1 <= r < |s|
    ensures r >= 0 ==> s[r] == c && c !in s[..r]
    ensures r == -1 <==> c !in s
    decreases |s|
  {
    if s == [] then -1
    else if s[0] == c then 0
    else
      var k := Find(s[1..], c);
      if k == -1 then -1 else k + 1
  }

  /** Python's `sep.join(xs)`. */
  function Join(sep: string, xs: seq<string>): string
    decreases |xs|
  {
    if |xs| == 0 then ""
    else if |xs| == 1 then xs[0]
    else xs[0] + sep + Join(sep, xs[1..])
  }

  /** Python's `t.split(c)` generalised to a set of single-character
      separators: the maximal separator-free pieces between separators,
      empty pieces included. */
  function Split(t: string, isSep: char -> bool): (r: seq<string>)
    ensures |r| >= 1
    ensures forall i, c :: 0 <= i < |r| && c in r[i] ==> !isSep(c)
    decreases |t|
  {
    if t == [] then [""]
    else
      var rest := Split(t[1..], isSep);
      if isSep(t[0]) then [""] + rest
      else
        assert forall i, c :: 1 <= i < |rest| && c in rest[i] ==> !isSep(c);
        [[t[0]] + rest[0]] + rest[1..]
  }

  /** No character of `s` is a separator. */
  predicate SepFree(s: string, isSep: char -> bool) {
    forall c :: c in s ==> !isSep(c)
  }

  /** A separator-free text splits into itself alone. */
  lemma {:induction false} SplitSepFree(t: string, isSep: char -> bool)
    requires SepFree(t, isSep)
    ensures Split(t, isSep) == [t]
    decreases |t|
  {
    if t != [] {
      assert t[0] in t;
      assert SepFree(t[1..], isSep) by {
        forall c | c in t[1..] ensures !isSep(c) {
          assert c in t;
        }
      }
      SplitSepFree(t[1..], isSep);
      assert [t[0]] + t[1..] == t;
    }
  }

  /** Splitting distributes over a separator: the pieces of `a + [c] + b`
      are the pieces of `a` followed by the pieces of `b`. */
  lemma {:induction false} SplitAtSep(a: string, c: char, b: string, isSep: char -> bool)
    requires isSep(c)
    ensures Split(a + [c] + b, isSep) == Split(a, isSep) + Split(b, isSep)
    decreases |a|
  {
    if a == [] {
      assert a + [c] + b == [c] + b;
      assert ([c] + b)[1..] == b;
    } else {
      var t := a + [c] + b;
      assert t[0] == a[0];
      assert t[1..] == a[1..] + [c] + b;
      SplitAtSep(a[1..], c, b, isSep);
    }
  }

  /** `Split` undoes `Join` when the joining character is a separator and
      no piece contains one. */
  lemma {:induction false} SplitJoin(c: char, xs: seq<string>, isSep: char -> bool)
    requires isSep(c)
    requires |xs| >= 1
    requires forall i :: 0 <= i < |xs| ==> SepFree(xs[i], isSep)
    ensures Split(Join([c], xs), isSep) == xs
    decreases |xs|
  {
    if |xs| == 1 {
      SplitSepFree(xs[0], isSep);
    } else {
      SplitSepFree(xs[0], isSep);
      SplitJoin(c, xs[1..], isSep);
      SplitAtSep(xs[0], c, Join([c], xs[1..]), isSep);
      assert [xs[0]] + xs[1..] == xs;
    }
  }

  /** `pat` occurs in `t` from its first character on. */
  predicate StartsWith(t: string, pat: string) {
    |pat| <= |t| && t[..|pat|] == pat
  }

  /** Python's `pat in t`. */
  predicate Contains(t: string, pat: string)
    decreases |t|
  {
    StartsWith(t, pat) || (t != [] && Contains(t[1..], pat))
  }

  /** A text holds every string spliced into it. */
  lemma {:induction false} ContainsSpliced(a: string, pat: string, b: string)
    ensures Contains(a + pat + b, pat)
    decreases |a|
  {
    var t := a + pat + b;
    if a == [] {
      assert t[..|pat|] == pat;
    } else {
      assert t[1..] == a[1..] + pat + b;
      ContainsSpliced(a[1..], pat, b);
    }
  }

  /** A text still holds a pattern once something is put in front of it. */
  lemma {:induction false} ContainsAfter(a: string, t: string, pat: string)
    requires Contains(t, pat)
    ensures Contains(a + t, pat)
    decreases |a|
  {
    if a != [] {
      assert (a + t)[1..] == a[1..] + t;
      ContainsAfter(a[1..], t, pat);
    } else {
      assert a + t == t;
    }
  }

  /** A joined text holds each of the strings joined. */
  lemma {:induction false} JoinContains(sep: string, xs: seq<string>, i: nat)
    requires i < |xs|
    ensures Contains(Join(sep, xs), xs[i])
    decreases |xs|
  {
    if |xs| == 1 {
      ContainsSpliced([], xs[0], []);
      assert [] + xs[0] + [] == xs[0];
    } else if i == 0 {
      ContainsSpliced([], xs[0], sep + Join(sep, xs[1..]));
      assert [] + xs[0] + (sep + Join(sep, xs[1..])) == Join(sep, xs);
    } else {
      JoinContains(sep, xs[1..], i - 1);
      ContainsAfter(xs[0] + sep, Join(sep, xs[1..]), xs[i]);
    }
  }

  /** A pattern held by a string held by a text is held by the text. */
  lemma {:induction false} ContainsInside(t: string, u: string, pat: string)
    requires Contains(t, u)
    requires Contains(u, pat)
    ensures Contains(t, pat)
    decreases |t|
  {
    if StartsWith(t, u) {
      PrefixContains(u, pat, t[|u|..]);
      assert u + t[|u|..] == t;
    } else {
      ContainsInside(t[1..], u, pat);
      ContainsAfter([t[0]], t[1..], pat);
      assert [t[0]] + t[1..] == t;
    }
  }

  /** A text holds whatever its prefix holds. */
  lemma {:induction false} PrefixContains(u: string, pat: string, b: string)
    requires Contains(u, pat)
    ensures Contains(u + b, pat)
    decreases |u|
  {
    if StartsWith(u, pat) {
      assert (u + b)[..|pat|] == u[..|pat|];
    } else {
      PrefixContains(u[1..], pat, b);
      assert (u + b)[1..] == u[1..] + b;
    }
  }

  /** Python's `str.lower()` restricted to ASCII letters. */
  function AsciiLower(s: string): (r: string)
    ensures |r| == |s|
    ensures forall i :: 0 <= i < |s| ==>
      r[i] == (if 'A' <= s[i] <= 'Z' then (s[i] as int + 32) as char else s[i])
    decreases |s|
  {
    if s == [] then ""
    else
      var c := if 'A' <= s[0] <= 'Z' then (s[0] as int + 32) as char else s[0];
      [c] + AsciiLower(s[1..])
  }
}
